=== FILE: README.md ===
# l4d2_sk download-and-materialize core, in Dafny

This project models the part of l4d2_sk that fetches files over HTTP and puts them on
disk. l4d2_sk is a set of Python scripts that set up a Left 4 Dead 2 dedicated server.
The model covers:

- **File names and types** (`src/path_utils.py`, `utils.py` `file_utils`):
  - `extract_file_type`, which understands a `.tar.<ext>` double extension;
  - `split_file_name_format`, which splits at the last dot only;
  - `normalize`, which keeps the ASCII characters, turns runs of dashes and whitespace
    into `_`, strips `_`, and keeps the extension.
- **The file tree** (`src/path_utils.py`, mirrored in `utils.py`):
  - `ensure_dir`, `copy2`, the merge copy `copy2_r`, and `rmtree_d`, which empties a
    directory but keeps it;
  - staged archive extraction: extract into a temporary directory, merge into the
    destination, then dispose of or empty the staging directory.

  A tree is a map from relative paths to bytes plus a set of directories. The root `""`
  always exists.
- **HTTP helpers in `src/http_utils.py`**:
  - `http_request`, with redirects followed up to a depth and time-outs retried per
    round;
  - `stream_to_buf`;
  - the header parsers for file name, length and type;
  - `download_file`, which keeps an existing file of the advertised size and re-downloads
    otherwise.

  The network is a function from (call number, URL) to an outcome: a response, a
  time-out or another error.
- **HTTP helpers in `utils.py` (`http_utils`)**:
  - single-shot `head`/`get`;
  - `parse_url_filename` and `parse_file_info`, with names normalized;
  - `get_stream_to_io`, whose success requires `math.isclose(bytes read, advertised
    size)`;
  - `download_file`, which writes the file only when the stream succeeded.
- **`parse_response_header` of setup.py.** There, `url` is a module-level name bound by
  the setup loop; here it is an explicit parameter.
- **`SteamAppManager`** (`src/steamcmd_manager.py`, duplicated in `utils.py`): the
  constructor, `configure`, `configure_auth` and the two steamcmd argument lists.

`src/http_utils.py` imports its path helpers from `src.pathlib`. That module is
`src/path_utils.py`, whose logger is named `pathlib`.

Modules:

| module | file |
|---|---|
| `Results` | `results.dfy` (`Option`, `Result`) |
| `Text` | `text.dfy` (Python string helpers; see below) |
| `PathUtils` | `path_utils.dfy` |
| `Http` | `http.dfy` (headers, responses, outcomes) |
| `HttpUtils` | `http_utils.dfy` (`src/http_utils.py`) |
| `FileUtils` | `file_utils.dfy` (`utils.py` `file_utils`) |
| `UtilsHttp` | `utils_http.dfy` (`utils.py` `http_utils`) |
| `SetupHeader` | `setup_header.dfy` |
| `SteamCmd` | `steamcmd.dfy` |

`Text` gives the Python built-ins the core relies on exact definitions:

- `split`/`join` on one character, `split(c)[-1]`, and `strip`/`rstrip` with a character
  set;
- `str.isnumeric` on ASCII;
- `int()` on text: surrounding whitespace, one sign, underscores between digits;
- `str(n)`;
- `re.findall(key + '(.+)')[0]`: the rest of the line after the leftmost match, since `.`
  does not match a newline.

Two places where the model follows the code rather than a description of it:

- `parse_headers_file_name` strips the characters `' \ " . ; ) *` and space from the
  name. The Python literal `'\'\\".;)*\ '` includes a backslash.
- `normalize` is not idempotent. Normalizing `x_.y.` gives `x_.y`, and normalizing that
  gives `x.y`. Idempotence holds when the ASCII name does not end with a dot.
  `utils.py:182` and `utils.py:185` normalize a name taken from the URL twice, and the
  model does the same.

Further notes:

- In `utils.py`, `get_stream_to_io` records a size of -1 when there is no
  `content-length`. `isclose` never accepts that size, so such a download always reports
  failure and is never written.
- `download_file` in `src/http_utils.py` never compares the streamed byte count with the
  advertised size. Only `stream_to_buf` finishing counts.

## Model

| member | source | states |
|---|---|---|
| PathUtils.ExtractFileType | src/path_utils.py:33-44 | The source text is kept. A dot-free name has no extension. Otherwise name and extension joined by a dot give back the input. |
| PathUtils.ExtractFileTypeTar | src/path_utils.py:37-39 | For `x.tar.e`, the extension is `tar.e` and the name is `x`, for any `x`. |
| PathUtils.ExtractFileTypePlain | src/path_utils.py:40-42 | For any other dotted name `x.e`, the extension is the last piece `e` and the name is everything before the last dot. |
| PathUtils.EnsureDir | src/path_utils.py:19-23 | It fails exactly when the path or one of its ancestors is a file. Otherwise the directory and its ancestors exist afterwards, no file changes, and nothing else is created. The path is returned exactly when it did not already exist. An existing directory leaves the tree unchanged. Well-formedness is preserved. |
| PathUtils.Copy2 | src/path_utils.py:56-58 | The destination holds the copied bytes. Every other file is unchanged, exactly one name may be added, and directories are only added. It succeeds whenever the containing directory exists and the destination is not a directory, and then no directory is created. |
| PathUtils.Copy2R | src/path_utils.py:60-72 | The merge fails exactly when the two trees put a file and a directory at the same path. Otherwise the result holds the union of the directories, every source file with its source bytes, and every other destination file unchanged. Well-formedness is preserved. |
| PathUtils.CreateDirs | src/path_utils.py:63-67 | The directory pass fails exactly when a source directory is a destination file. Otherwise it adds exactly the source directories and leaves the files alone. |
| PathUtils.ClashWitness | src/path_utils.py:63-65 | When `ensure_dir` cannot make a source directory, some source directory is a destination file. |
| PathUtils.CopyFiles | src/path_utils.py:68-72 | The file pass fails exactly when a source file is a destination directory. Otherwise source files overwrite, destination files are kept, and directories are unchanged. |
| PathUtils.RmtreeD | src/path_utils.py:49-54 | Exactly the files and directories strictly inside the directory are removed. Everything else is kept with its contents. |
| PathUtils.RmtreeDEmpties | src/path_utils.py:49-54 | Afterwards the tree is well formed, the directory exists exactly as before, and nothing lies inside it. |
| PathUtils.RmtreeDRoot | src/path_utils.py:49-54 | Emptying the root of a well-formed tree leaves the empty tree. |
| PathUtils.ExtractAll | src/path_utils.py:81 | The files written are the old ones plus the archive's file entries. The last entry for a path decides its bytes, other files are kept, directories are only added, every directory entry exists afterwards, and well-formedness is preserved. |
| PathUtils.ArchiveExtract | src/path_utils.py:74-100 | Each path of the archive ends up in the destination with the bytes of its last entry, and each directory entry of the archive is a directory of the destination. Destination directories are kept. A given staging directory is left empty. Without one, only the archive's files are added to the destination. |
| PathUtils.Dirname | src/path_utils.py:57 | `os.path.dirname` of a relative path is the root or one of the path's ancestors. |
| PathUtils.PathJoin | utils.py:88-90 | An absolute second part replaces the first. Otherwise the result starts with the first part and ends with the second. |
| PathUtils.PathJoinDirname | utils.py:247 | A slash-free name joined to a directory lies directly in that directory. |
| PathUtils.OpenForWrite | src/http_utils.py:143 | Opening for writing succeeds exactly when the path is non-empty, does not end in `/`, is not a directory, and its directory exists. It leaves an empty file there and changes nothing else. |
| PathUtils.RemoveFile | src/http_utils.py:132 | Exactly that file disappears. Every other file and every directory is kept. |
| HttpUtils.Baseurl | src/http_utils.py:22-24 | The result holds no slash and is no longer than the path. |
| HttpUtils.BaseurlSegment | src/http_utils.py:24 | Any number of trailing slashes after the last segment are ignored, and that segment is returned. |
| HttpUtils.BaseurlBare | src/http_utils.py:24 | A path with no slash, followed by any number of slashes, gives the path itself (`abc` and `abc//` both give `abc`). |
| HttpUtils.Round | src/http_utils.py:28-47 | One round makes between 1 and `max_depth` calls, each to the URL the previous redirect named. It stops at the first outcome that is neither a redirect nor a time-out. After a time-out or a spent depth budget, the next round starts at depth 0 from the URL reached so far. |
| HttpUtils.HttpRequest | src/http_utils.py:26-48 | The result is the last response exactly when its status is 200. Otherwise it is `None`. The calls form the chain the loop makes. At most `max_retry * max_depth` calls are made, and none when either bound is 0. |
| HttpUtils.FirstAnswerOk | src/http_utils.py:37-39 | A 200 on the first call ends the loop after exactly one call, with that response. |
| HttpUtils.FirstAnswerFinal | src/http_utils.py:40-47 | Any other status, or an error other than a time-out, on the first call ends the loop after exactly one call, with `None`. |
| HttpUtils.RetryKeepsRedirect | src/http_utils.py:32-44 | After a redirect to `loc` and a time-out there, the next round asks `loc` again rather than the original URL. |
| HttpUtils.AllTimeouts | src/http_utils.py:42-44 | When every call times out, there is exactly one call per round, always to the original URL, and the result is `None`. |
| HttpUtils.EndlessRedirects | src/http_utils.py:31-36 | A server that always redirects is asked exactly `max_retry * max_depth` times, and the result is `None`. |
| HttpUtils.StreamToBuf | src/http_utils.py:51-82 | It raises exactly when no length is given and the header's `int()` raises. Otherwise the buffer gains every delivered chunk in order, and the status is true exactly when iteration finished. |
| HttpUtils.ParseHeadersFileName | src/http_utils.py:84-94 | The name neither starts nor ends with a stripped character and holds no newline. With no disposition it is empty. |
| HttpUtils.FileNamePlainParameter | src/http_utils.py:87-94 | A `filename=` parameter wins. Its value is stripped of the junk characters. |
| HttpUtils.FileNameExtendedParameter | src/http_utils.py:89-94 | Without a plain parameter, a `filename*=` value loses its first 7 characters when it starts with `utf-8` in any case. It is then stripped. |
| HttpUtils.DispositionNameLine | src/http_utils.py:85-93 | The name taken from either parameter, before the final strip, never holds a newline, since the regular expression stops at the end of the line. |
| HttpUtils.FileNameAbsent | src/http_utils.py:84-94 | A disposition where neither `filename=` nor `filename*=` matches gives an empty name. |
| HttpUtils.DispositionEscapesDir | src/http_utils.py:127-128 | `filename=../x` strips to `/x` (the strip of line 94): the dots are junk characters but the slash is not. Joined to the download directory, it gives the absolute path `/x`, outside that directory. |
| HttpUtils.ParseHeadersContentLength | src/http_utils.py:96-102 | A missing or non-numeric length reads as 0. |
| HttpUtils.ContentLengthRoundTrip | src/http_utils.py:98-99 | A length written as a decimal numeral is read back exactly. |
| HttpUtils.ContentLengthSigned | src/http_utils.py:98-101 | A signed length such as `-5` is not numeric and reads as 0. |
| HttpUtils.ParseHeadersContentType | src/http_utils.py:104-105 | The header value, or the empty string when it is absent. |
| HttpUtils.ParseFileInfo | src/http_utils.py:107-115 | The name comes from the disposition, or from the URL's last segment when that is empty. The file type is `extract_file_type` of that same name, whose value the two `ExtractFileType` lemmas give. The size and content type are the parsed headers. |
| HttpUtils.Materialize | src/http_utils.py:129-146 | A file of the advertised size is kept without a GET. Otherwise a GET is made to `url`, with 3 retries and a redirect depth of 10, and its calls form the request trace. If the GET fails, the stale file is removed. If it succeeds, the destination holds exactly the streamed bytes, the status says whether the stream finished, and no other file changes. |
| HttpUtils.DownloadFile | src/http_utils.py:117-146 | The HEAD is a request to `url` on the HEAD network, with 3 retries and depth 10. A failed HEAD leaves the tree untouched and returns `(False, None, None)`. Otherwise the destination directory is created, and the path is `dst_dir` joined with the parsed name. A kept file needs no GET. Otherwise the GET is a request to the same `url` on the GET network, with the same limits. A failed GET removes the stale file. After a successful GET, the call raises exactly when the file cannot be opened or the content-length lookup raises, and otherwise writes exactly the streamed bytes with the stream's status. A raise changes no file other than the destination. |
| FileUtils.SplitFileNameFormat | utils.py:42-51 | A dot-free name has an empty stub. Otherwise the base, a dot and the stub give back the name, and the stub holds no dot. |
| FileUtils.SplitFileNameFormatLast | utils.py:45-51 | The stub is exactly the text after the last dot. |
| FileUtils.SplittersOnTar | utils.py:45-51 | On `x.tar.e` the two splitters differ: `split_file_name_format` gives stub `e`, while `extract_file_type` gives `tar.e`. |
| FileUtils.SplittersAgree | utils.py:45-51 | On a name whose base does not end in `.tar`, both splitters give the same base and extension. |
| FileUtils.AsciiOnly | utils.py:57 | The result is ASCII, is the input when the input is ASCII, and adds no dot. |
| FileUtils.Collapse | utils.py:60 | No dash or whitespace is left, ASCII input stays ASCII, and no dot appears. |
| FileUtils.CollapseRun | utils.py:60 | A run of dashes and whitespace becomes one underscore. |
| FileUtils.CollapseFree | utils.py:60 | Text without dashes or whitespace is unchanged. |
| FileUtils.CollapseConcat | utils.py:60 | The substitution works piecewise when the cut does not split a run. |
| FileUtils.NormalBase | utils.py:60 | The base holds no dash or whitespace and neither starts nor ends with `_`. |
| FileUtils.Normalize | utils.py:53-63 | The result is ASCII and does not start with `_`. A non-empty stub is kept after a dot. Without a stub the result holds no dash or whitespace. |
| FileUtils.NormalizeIdempotent | utils.py:53-63 | Normalizing twice equals normalizing once, unless the ASCII name ends with a dot. |
| FileUtils.NormalizeNotIdempotent | utils.py:53-63 | `x_.y.` becomes `x_.y` and then `x.y`, so the condition on idempotence is needed. |
| FileUtils.NormalizeWithStub | utils.py:58-63 | With an extension only the base is rewritten. |
| FileUtils.NormalizeTrailingDot | utils.py:58-63 | A trailing dot is dropped, with no extension. |
| FileUtils.NormalizeWords | utils.py:53-63 | Words separated by spaces or dashes are joined by one underscore, and the extension is kept. |
| UtilsHttp.Fetch | utils.py:145-165 | `head`/`get` return the response exactly when the status is 200, and `None` for any other status or exception. |
| UtilsHttp.ParseUrlFilename | utils.py:167-176 | The name is ASCII. A path without a slash is normalized as a whole. |
| UtilsHttp.UrlFilenameSegment | utils.py:173-176 | For any prefix, the name of `prefix/segment` is the normalized slash-free segment. |
| UtilsHttp.UrlFilenameTrailingSlash | utils.py:174-176 | A path ending in a slash gives an empty name. `baseurl` does not behave this way. |
| UtilsHttp.RawFileName | utils.py:180-184 | Without a disposition, the URL name is used. With one, it fails exactly when there is no `filename=` match, and otherwise it is the first match with double quotes stripped from both ends. |
| UtilsHttp.FileSize | utils.py:187-191 | The size is -1 without a length. With one, it fails exactly when `int()` raises, and otherwise it is that value. |
| UtilsHttp.ParseFileInfo | utils.py:178-193 | It fails exactly when the name or the size fails. The name is the raw name normalized. The type is its stub. The disposition is kept, possibly absent, and the type defaults to empty. |
| UtilsHttp.DispositionFileName | utils.py:180-193 | With `filename=` and no length header, the info holds the quote-stripped value normalized, its stub as the type, and size -1. |
| UtilsHttp.FileTypeIsLastStub | utils.py:186 | A corollary of the splitter's contract: the type is the dot-free text after the last dot, with no `tar` rule, unlike `extract_file_type`. |
| UtilsHttp.RequestFileInfo | utils.py:195-200 | A failed HEAD gives no info. Otherwise the result fails exactly when parsing the HEAD headers fails, and else holds that parse. |
| UtilsHttp.IsCloseSmall | utils.py:236 | Below 10^9 bytes, `isclose` on sizes is equality. |
| UtilsHttp.IsCloseSymmetric | utils.py:236 | `isclose` does not depend on argument order, and every size is close to itself. |
| UtilsHttp.IsCloseTolerates | utils.py:236 | From 10^9 bytes on, a count one byte off the advertised size still passes the check. |
| UtilsHttp.IsCloseUnknownSize | utils.py:236 | No byte count is close to the unknown size -1. |
| UtilsHttp.GetStreamToIo | utils.py:202-236 | A failed GET returns `(False, None)` and writes nothing. A header parse failure raises. Otherwise every chunk is appended, and the status is true exactly when the stream finished and the count is close to the advertised size. |
| UtilsHttp.Drain | utils.py:218-222 | The buffer gains the chunks in order, and the count is their total length. |
| UtilsHttp.NoLengthNeverSucceeds | utils.py:187-236 | Without `content-length`, the size is -1 and no byte count is close to it. So `get_stream_to_io` reports failure even for a complete stream. |
| UtilsHttp.DownloadFile | utils.py:238-259 | A failed HEAD gives `(False, None, None)`. A parse error raises. An existing file is reported as done, unchanged. Otherwise the status and the tree are fixed by case: a failed GET, a broken body or a size not close to the advertised one gives `False` with the tree untouched. Headers the parser rejects raise. A complete, close stream gives `True` exactly when `ensure_dir` and `open` succeed, and then writes the body. A failed `open` keeps the directories `ensure_dir` made. |
| UtilsHttp.Store | utils.py:253-258 | A failed GET, a broken body or a size not close to the advertised one gives `False` with the tree unchanged. Headers the parser rejects raise with the tree unchanged. A complete, close stream gives `True` exactly when `ensure_dir` succeeds and the path can then be opened. The file then holds exactly the body, no other file changes, and the directories are those `ensure_dir` leaves. When `open` raises, the directories `ensure_dir` made stay. |
| UtilsHttp.WriteFile | utils.py:256-258 | On success the file holds the data, no other file changes, and the directories are exactly those `ensure_dir(export_dir)` leaves. It fails exactly when the directory cannot be made or the path cannot then be opened for writing. |
| SetupHeader.Unquote | setup.py:128 | The first and last characters are removed, giving empty text for fewer than two. |
| SetupHeader.UnquoteQuoted | setup.py:128 | A quoted name comes back without its quotes. |
| SetupHeader.WithTypeSuffix | setup.py:133-134 | The name ends with the type. It is unchanged exactly when it already did, and otherwise gains `.` plus the type. |
| SetupHeader.WithTypeSuffixIdempotent | setup.py:133-134 | Applying the suffix rule twice changes nothing. |
| SetupHeader.BaseName | setup.py:124-128 | Without a disposition, the URL's last piece is used. With one, it fails exactly when `filename=` never matches, and otherwise it is the first match without its first and last characters. |
| SetupHeader.ParseResponseHeader | setup.py:123-140 | It fails exactly on a disposition without `filename=` (raising `IndexError` first) or on a non-integer length. The type is present exactly when the header is, and is then the header's text after its last slash. The name is the base name with the suffix rule applied for that type, or the base name when there is no type. The length is present exactly when the header is, and is its `int()`. |
| SetupHeader.QuotedFileName | setup.py:127-128 | `filename="x"` with no other headers yields exactly `x`. |
| SetupHeader.UrlFileName | setup.py:125-126 | With no headers, the name is the URL's last segment. |
| SetupHeader.TypedName | setup.py:130-134 | The type is the subtype after the slash. A name already ending with it is kept. |
| SteamCmd.New | src/steamcmd_manager.py:15-22 | A fresh manager holds the four settings and logs in as `anonymous` with an empty password. |
| SteamCmd.Configure | src/steamcmd_manager.py:24-28 | Exactly the four app fields are replaced, and the login is kept. |
| SteamCmd.ConfigureAuth | src/steamcmd_manager.py:30-32 | An empty user id becomes `anonymous`, otherwise it is kept. The password is stored verbatim, and nothing else changes. |
| SteamCmd.ConfigureCommutes | src/steamcmd_manager.py:24-32 | Configuring the app and the login commute. |
| SteamCmd.SteamcmdPath | src/steamcmd_manager.py:34-36 | The executable path is `/steamcmd/steamcmd.exe`. |
| SteamCmd.PrepareArgsUpdateApp | src/steamcmd_manager.py:56-65 | The list has 8 or 9 entries. It forces the install directory, logs in as `anonymous`, and updates the server app. It ends with `+quit`, preceded by `+validate` when asked. |
| SteamCmd.UpdateArgsIgnoreAuth | src/steamcmd_manager.py:60 | The update list is the same whatever login is configured. |
| SteamCmd.ValidateIffRequested | src/steamcmd_manager.py:63-65 | `+validate` occurs exactly when requested, unless a setting is itself spelled `+validate`. |
| SteamCmd.UpdateArgsRoundTrip | src/steamcmd_manager.py:56-65 | A reference reader defined in the model, not steamcmd's own parser, recovers the install directory, app and flag from the update list, so the list loses none of them. |
| SteamCmd.PrepareArgsWorkshopDownloadItem | src/steamcmd_manager.py:67-74 | The list logs in with the configured user and password. It then downloads the item of the app and ends with `+quit`. A text id is passed on verbatim. A number is printed so that `int` reads it back, and a non-negative one is a plain decimal numeral. |
| SteamCmd.WorkshopArgsRoundTrip | src/steamcmd_manager.py:67-74 | A reference reader defined in the model, not steamcmd's own parser, recovers the directory, login, app and `str` of the item from the workshop list. |
| SteamCmd.ItemText | src/steamcmd_manager.py:72 | `str` of the item id: a text id is unchanged. A number becomes a numeral that `int` reads back as the number, with a leading `-` exactly when it is negative. |
| SteamCmd.WorkshopNumericItem | src/steamcmd_manager.py:72 | For a numeric id, `int` of the item read back from the list is the id. |
| SteamCmd.WorkshopTextItem | src/steamcmd_manager.py:72 | A text id, such as a zero-padded `"0123"` from the `workshopIds` setting, reaches the list character for character. |
| SteamCmd.FreshManagerWorkshopLogin | src/steamcmd_manager.py:20-22 | A fresh manager logs in as `anonymous` with an empty password. |
| Text.LastPiece | src/http_utils.py:24 | `split(c)[-1]` holds no `c`, is a suffix, and follows the last `c`. |
| Text.Strip | src/http_utils.py:94 | `strip(cs)` removes exactly the longest leading and trailing runs of characters from `cs`. |
| Text.FindGroup | src/http_utils.py:87-88 | There is no result exactly when `filename=` never matches. Otherwise the result is the rest of the line at the leftmost match. |
| Text.StripRight | src/http_utils.py:24 | `rstrip(cs)` keeps a prefix, removes exactly the longest trailing run of characters from `cs`, and leaves no such character at the end. |
| Text.Split | src/path_utils.py:34 | `split(c)` gives at least one piece, and no piece holds `c`. |
| Text.JoinSplit | src/path_utils.py:34-43 | `c.join(s.split(c)) == s`. |
| Text.SplitJoin | utils.py:45-50 | Splitting a join of `c`-free pieces gives the pieces back. |
| Text.PyIntNumeric | src/http_utils.py:98-99 | On ASCII text, whenever `isnumeric()` holds, `int()` succeeds with the decimal value. |
| Text.PyIntRoundTrip | utils.py:191 | `int(str(n)) == n`. |
| Text.PyIntNegative | setup.py:138 | `int('-' + str(n)) == -n`. |

## Left out

- Logging, `print` progress lines and the elapsed-time and speed arithmetic in the
  streaming loops. These are output only.
- `urlparse`: every URL-handling operation takes the URL's path component (and, for
  `http_request`, the URL) as given. The `ValueError` branch of `parse_url_filename`
  (utils.py:169-172) is therefore not modelled.
- Case-insensitive header lookup: header names are taken as already lower-cased.
- The `NFKD` step of `normalize`: the input is taken as already decomposed, and only
  the ASCII filter is modelled.
- Decoding zip and tar archives: an archive is the list of entries its reader yields.
  Path sanitisation of entries is left out.
- The temporary directory of `mkdtemp`: without a staging directory, the staging area
  is a fresh empty tree that is dropped afterwards.
- `shutil.copy2` onto an existing directory, which copies into it. The model reports a
  clash instead.
- Partial state after a failed `copy2_r`: the model reports the clash without the copies
  made before it.
- `os.makedirs('')` raising: the root `""` always exists, so creating it succeeds.
- The utils.py copies of `ensure_dir`, `rmtree_d`, `copy2`, `copy2_r` and `extract_zip`
  (utils.py:76-136) are modelled by the `PathUtils` members. Their only difference is that
  `ensure_dir` passes `exist_ok=True` and returns nothing.
- A caller-supplied `buf` for utils.py `download_file`: the default fresh buffer is
  modelled. The unused `file_name` and `chunk_size` parameters of src/http_utils.py
  `download_file` are dropped.
- `get_steamcmd_path(*tails)` with tails: the argument builders call it with none.
- `is_steamcmd_installed`, `get_app_path`, `update_app`, `workshop_download_item` and
  `workshop_download_item_extern`: these run subprocesses or make network and JSON
  calls.
- `download_steamcmd`: `download_file` runs first (HEAD, GET and the write under
  `./downloads`), and unpacking its three-tuple into two names then raises
  (src/steamcmd_manager.py:49). So it raises after the download and before extracting,
  and does not raise at all when steamcmd is already installed. Only the
  `download_file` it calls is modelled.
- setup.py's `__main__` block, `config` class, `http_check_connection`,
  `http_download_content` and `rmtree_d`: these are configuration and I/O around the
  header parser.
- Integer widths: Python integers are unbounded, and so are Dafny's.
- `isclose` on floats: the byte counts are whole numbers, so `isclose` is modelled
  exactly on integers. It holds when `|a - b| * 10^9 <= max(|a|, |b|)`.
- SteamCmd.ItemText: only integer and string ids are modelled. A float or other object
  passed as `workshop_item_id` would be printed by its own `str`.
- HttpUtils.StreamToBuf: models only the byte accounting. Exceptions raised by
  `buf.write` itself are folded into the body's `broken` flag.
- HttpUtils.HttpRequest: leaves the request method and keyword arguments implicit in the
  network function.
- HttpUtils.ParseHeadersContentLength: header values are taken to be ASCII. `isnumeric`
  and `int()` are Unicode-aware on the Latin-1 text a header can hold: `'²'` is
  numeric but `int('²')` raises, and `int()` strips a no-break space. The model's
  digit and whitespace classes are ASCII only, so it reads such values differently.
  The same holds for UtilsHttp.FileSize, SetupHeader.ParseResponseHeader, Text.PyInt
  and Text.IsNumeric.
- PathUtils.PathJoin: paths are compared as strings and taken as normalised names, with
  no aliasing. `a/../b` and `b`, `./a` and `a`, `a//b` and `a/b`, and an absolute path and
  the relative path to the same file are different keys of the tree. One consequence
  is stated rather than modelled on a real filesystem: a server-supplied
  `filename=../x` becomes `/x` and lands outside the download directory
  (HttpUtils.DispositionEscapesDir).
- PathUtils.ArchiveExtract: does not characterise when the merge fails (that is
  Copy2R's contract), nor the files a caller-supplied staging directory already held.

=== FILE: file_utils.dfy ===
/** The name helpers of the `file_utils` class in utils.py: `split_file_name_format`
    and `normalize`. (Its file-tree helpers `ensure_dir`, `copy2`, `copy2_r`,
    `rmtree_d` and `extract_zip` behave as the ones of src/path_utils.py and are
    modelled there.) */
module FileUtils {
  import opened Text
  import opened PathUtils

  // ---------------------------------------------------------------------------
  // split_file_name_format

  /** `split_file_name_format(s)`: the name before the last dot and the stub after it;
      a name without a dot has the empty stub. */
  function SplitFileNameFormat(s: string): (r: (string, string))
    ensures '.' !in s ==> r == (s, "")
    ensures '.' in s ==> r.0 + "." + r.1 == s && '.' !in r.1
  {
    var ss := Split(s, '.');
    var n := |ss|;
    JoinSplit(s, '.');
    if n == 1 then
      assert s == ss[0];
      (s, "")
    else
      assert ss == ss[..n - 1] + [ss[n - 1]];
      JoinConcat(ss[..n - 1], [ss[n - 1]], '.');
      (Join(ss[..n - 1], '.'), ss[n - 1])
  }

  /** Two dots each followed only by dot-free text are the same dot. */
  lemma LastDotUnique(s: string, i: nat, j: nat)
    requires i < |s| && j < |s| && s[i] == '.' && s[j] == '.'
    requires forall k :: i < k < |s| ==> s[k] != '.'
    requires forall k :: j < k < |s| ==> s[k] != '.'
    ensures i == j
  {
  }

  /** The stub is exactly what follows the last dot: splitting `x.e` gives `(x, e)`. */
  lemma SplitFileNameFormatLast(x: string, e: string)
    requires '.' !in e
    ensures SplitFileNameFormat(x + "." + e) == (x, e)
  {
    var s := x + "." + e;
    var r := SplitFileNameFormat(s);
    assert s[|x|] == '.';
    assert forall k :: |x| < k < |s| ==> s[k] == e[k - |x| - 1];
    assert s == r.0 + "." + r.1;
    assert s[|r.0|] == '.';
    assert forall k :: |r.0| < k < |s| ==> s[k] == r.1[k - |r.0| - 1];
    LastDotUnique(s, |x|, |r.0|);
    assert r.0 == s[..|x|] == x;
    assert r.1 == s[|x| + 1..] == e;
  }

  /** Both splitters agree on a name whose base does not end in `.tar`; on `x.tar.e`,
      `extract_file_type` keeps `tar.e` as the extension while the stub is `e`. */
  lemma SplittersOnTar(x: string, e: string)
    requires '.' !in e
    ensures SplitFileNameFormat(x + ".tar." + e) == (x + ".tar", e)
    ensures ExtractFileType(x + ".tar." + e).fileExtension == "tar." + e
  {
    assert x + ".tar." + e == (x + ".tar") + "." + e;
    SplitFileNameFormatLast(x + ".tar", e);
    ExtractFileTypeTar(x, e);
  }

  lemma SplittersAgree(x: string, e: string)
    requires '.' !in e && !EndsWithTarSegment(x)
    ensures SplitFileNameFormat(x + "." + e) == (ExtractFileType(x + "." + e).fileName, ExtractFileType(x + "." + e).fileExtension)
  {
    SplitFileNameFormatLast(x, e);
    ExtractFileTypePlain(x, e);
  }

  // ---------------------------------------------------------------------------
  // normalize

  /** Every character is ASCII. */
  predicate Ascii(s: string)
  {
    forall i :: 0 <= i < |s| ==> s[i] as int < 128
  }

  /** `s.encode('ascii', 'ignore').decode('ascii')`: the ASCII characters, in order. */
  function AsciiOnly(s: string): (r: string)
    ensures |r| <= |s| && Ascii(r)
    ensures Ascii(s) ==> r == s
    ensures '.' !in s ==> '.' !in r
  {
    if |s| == 0 then ""
    else if s[0] as int < 128 then [s[0]] + AsciiOnly(s[1..])
    else AsciiOnly(s[1..])
  }

  /** The characters of the class `[-\s]`. */
  const Sep: set<char> := {'-'} + Whitespace

  /** No character of the class `[-\s]`. */
  predicate SepFree(s: string)
  {
    forall i :: 0 <= i < |s| ==> s[i] !in Sep
  }

  /** Only characters of the class `[-\s]`. */
  predicate AllSep(s: string)
  {
    forall i :: 0 <= i < |s| ==> s[i] in Sep
  }

  /** `re.sub(r'[-\s]+', '_', s)`: every maximal run of dashes and whitespace becomes
      one underscore. */
  function Collapse(s: string): (r: string)
    ensures SepFree(r)
    ensures Ascii(s) ==> Ascii(r)
    ensures '.' !in s ==> '.' !in r
    decreases |s|
  {
    if |s| == 0 then ""
    else if s[0] in Sep then
      var k := SkipFrom(s, Sep, 0);
      "_" + Collapse(s[k..])
    else [s[0]] + Collapse(s[1..])
  }

  /** A run of separators collapses to a single underscore. */
  lemma CollapseRun(run: string)
    requires |run| > 0 && AllSep(run)
    ensures Collapse(run) == "_"
  {
    SkipFromUnique(run, Sep, 0, |run|);
  }

  /** Text without separators is left alone. */
  lemma {:induction false} CollapseFree(s: string)
    requires SepFree(s)
    ensures Collapse(s) == s
    decreases |s|
  {
    if |s| > 0 {
      CollapseFree(s[1..]);
    }
  }

  /** Substitution works piecewise when the cut does not split a run. */
  lemma {:induction false} CollapseConcat(a: string, b: string)
    requires a == "" || a[|a| - 1] !in Sep
    ensures Collapse(a + b) == Collapse(a) + Collapse(b)
    decreases |a|, 1
  {
    if |a| == 0 {
      assert a + b == b;
    } else if a[0] !in Sep {
      CollapseConcatPlain(a, b);
    } else {
      CollapseConcatRun(a, b);
    }
  }

  lemma {:induction false} CollapseConcatPlain(a: string, b: string)
    requires |a| > 0 && a[0] !in Sep && a[|a| - 1] !in Sep
    ensures Collapse(a + b) == Collapse(a) + Collapse(b)
    decreases |a|, 0
  {
    var t := a[1..];
    assert Collapse(a) == [a[0]] + Collapse(t) by {
      CollapsePlainStep(a);
    }
    assert Collapse(a + b) == [a[0]] + Collapse(t + b) by {
      CollapsePlainStep(a + b);
      assert (a + b)[1..] == t + b;
    }
    assert Collapse(t + b) == Collapse(t) + Collapse(b) by {
      CollapseConcat(t, b);
    }
    SeqAssoc([a[0]], Collapse(t), Collapse(b));
  }

  lemma {:induction false} CollapseConcatRun(a: string, b: string)
    requires |a| > 0 && a[0] in Sep && a[|a| - 1] !in Sep
    ensures Collapse(a + b) == Collapse(a) + Collapse(b)
    decreases |a|, 0
  {
    var k := SkipFrom(a, Sep, 0);
    assert 0 < k < |a|;
    var t := a[k..];
    assert Collapse(a) == "_" + Collapse(t) by {
      CollapseRunStep(a, k);
    }
    CollapseRunExtend(a, b, k);
    assert Collapse(t + b) == Collapse(t) + Collapse(b) by {
      CollapseConcat(t, b);
    }
    SeqAssoc("_", Collapse(t), Collapse(b));
  }

  /** A leading run that ends inside `a` still ends there once `b` is appended. */
  lemma CollapseRunExtend(a: string, b: string, k: nat)
    requires |a| > 0 && a[0] in Sep && k == SkipFrom(a, Sep, 0) && k < |a|
    ensures Collapse(a + b) == "_" + Collapse(a[k..] + b)
  {
    SkipFromUnique(a + b, Sep, 0, k);
    CollapseRunStep(a + b, k);
    assert (a + b)[k..] == a[k..] + b;
  }

  lemma SeqAssoc(x: string, y: string, z: string)
    ensures x + (y + z) == (x + y) + z
  {
  }

  /** One unfolding of `Collapse` at a kept character. */
  lemma CollapsePlainStep(s: string)
    requires |s| > 0 && s[0] !in Sep
    ensures Collapse(s) == [s[0]] + Collapse(s[1..])
  {
  }

  /** One unfolding of `Collapse` at a separator run ending before `k`. */
  lemma CollapseRunStep(s: string, k: nat)
    requires |s| > 0 && s[0] in Sep && k == SkipFrom(s, Sep, 0)
    ensures Collapse(s) == "_" + Collapse(s[k..])
  {
  }

  /** The base part of `normalize`: separator runs collapsed, underscores stripped
      from both ends. */
  function NormalBase(base: string): (n: string)
    ensures SepFree(n)
    ensures |n| > 0 ==> n[0] != '_' && n[|n| - 1] != '_'
    ensures Ascii(base) ==> Ascii(n)
    ensures '.' !in base ==> '.' !in n
  {
    var c := Collapse(base);
    var n := Strip(c, {'_'});
    SliceKeeps(c, Lead(c, {'_'}), Lead(c, {'_'}) + |n|);
    n
  }

  /** A slice keeps every "no such character" fact of the whole. */
  lemma SliceKeeps(c: string, lo: nat, hi: nat)
    requires lo <= hi <= |c|
    ensures SepFree(c) ==> SepFree(c[lo..hi])
    ensures Ascii(c) ==> Ascii(c[lo..hi])
    ensures '.' !in c ==> '.' !in c[lo..hi]
  {
    assert forall i :: 0 <= i < hi - lo ==> c[lo..hi][i] == c[lo + i];
  }

  /** Both parts of an ASCII name's split are ASCII. */
  lemma AsciiParts(a: string)
    requires Ascii(a)
    ensures Ascii(SplitFileNameFormat(a).0) && Ascii(SplitFileNameFormat(a).1)
  {
    var base := SplitFileNameFormat(a).0;
    var stub := SplitFileNameFormat(a).1;
    if '.' in a {
      assert forall i :: 0 <= i < |base| ==> base[i] == a[i];
      assert forall i :: 0 <= i < |stub| ==> stub[i] == a[|base| + 1 + i];
    }
  }

  /** `normalize(s)`, for text already in NFKD form: keep the ASCII characters, split
      off the stub, collapse separator runs in the base to underscores, strip
      underscores from its ends, and put the stub back after a dot when non-empty. */
  function Normalize(s: string): (r: string)
    ensures Ascii(r)
    ensures |r| > 0 ==> r[0] != '_'
    ensures var stub := SplitFileNameFormat(AsciiOnly(s)).1;
            stub != "" ==> EndsWith(r, "." + stub)
    ensures var stub := SplitFileNameFormat(AsciiOnly(s)).1;
            stub == "" ==> SepFree(r)
  {
    var a := AsciiOnly(s);
    var sp := SplitFileNameFormat(a);
    var base := sp.0;
    var stub := sp.1;
    AsciiParts(a);
    var n := NormalBase(base);
    if stub != "" then
      JoinStub(n, stub);
      n + "." + stub
    else n
  }

  /** Putting the stub back after a dot keeps the name ASCII and its first character. */
  lemma JoinStub(n: string, stub: string)
    requires Ascii(n) && Ascii(stub)
    ensures Ascii(n + "." + stub)
    ensures EndsWith(n + "." + stub, "." + stub)
    ensures (n + "." + stub)[0] == if |n| > 0 then n[0] else '.'
  {
    AsciiConcat(n, ".");
    AsciiConcat(n + ".", stub);
    var r := n + "." + stub;
    assert r[|r| - |stub| - 1..] == "." + stub;
  }

  /** A separator-free name not starting or ending with an underscore is its own
      normal base. */
  lemma KeepsClean(n: string)
    requires SepFree(n)
    requires |n| > 0 ==> n[0] != '_' && n[|n| - 1] != '_'
    ensures NormalBase(n) == n
  {
    CollapseFree(n);
    StripUnique(n, {'_'}, 0, |n|);
  }

  /** Normalizing twice changes nothing when the ASCII name does not end with a dot. */
  lemma {:induction false} NormalizeIdempotent(s: string)
    requires var a := AsciiOnly(s); a == "" || a[|a| - 1] != '.'
    ensures Normalize(Normalize(s)) == Normalize(s)
  {
    var a := AsciiOnly(s);
    var sp := SplitFileNameFormat(a);
    var base := sp.0;
    var stub := sp.1;
    AsciiParts(a);
    var n := NormalBase(base);
    if stub != "" {
      assert Normalize(s) == n + "." + stub;
      NormalizeKeepsStubbed(n, stub);
    } else {
      assert '.' !in a;
      assert Normalize(s) == n;
      NormalizeKeepsPlain(n);
    }
  }

  /** A normalized base with a stub is its own normal form. */
  lemma NormalizeKeepsStubbed(n: string, stub: string)
    requires Ascii(n) && SepFree(n) && (|n| > 0 ==> n[0] != '_' && n[|n| - 1] != '_')
    requires Ascii(stub) && '.' !in stub && stub != ""
    ensures Normalize(n + "." + stub) == n + "." + stub
  {
    NormalizeWithStub(n, stub);
    KeepsClean(n);
  }

  /** A normalized base without a dot is its own normal form. */
  lemma NormalizeKeepsPlain(n: string)
    requires Ascii(n) && SepFree(n) && (|n| > 0 ==> n[0] != '_' && n[|n| - 1] != '_')
    requires '.' !in n
    ensures Normalize(n) == n
  {
    assert AsciiOnly(n) == n;
    assert SplitFileNameFormat(n) == (n, "");
    KeepsClean(n);
  }

  /** On an ASCII name `base.ext` with a non-empty dot-free `ext`, only the base is rewritten. */
  lemma NormalizeWithStub(base: string, ext: string)
    requires Ascii(base) && Ascii(ext) && '.' !in ext && ext != ""
    ensures Normalize(base + "." + ext) == NormalBase(base) + "." + ext
  {
    var s := base + "." + ext;
    AsciiConcat(base, ".");
    AsciiConcat(base + ".", ext);
    assert AsciiOnly(s) == s;
    SplitFileNameFormatLast(base, ext);
  }

  /** On an ASCII name ending in a dot, the dot is dropped and the rest is rewritten
      as a base, dots included. */
  lemma NormalizeTrailingDot(base: string)
    requires Ascii(base)
    ensures Normalize(base + ".") == NormalBase(base)
  {
    var s := base + "." + "";
    assert s == base + ".";
    AsciiConcat(base, ".");
    assert AsciiOnly(s) == s;
    SplitFileNameFormatLast(base, "");
  }

  /** Not idempotent in general: for words `x` and `y`, `x_.y.` becomes `x_.y` (the
      trailing dot leaves an empty stub) and that becomes `x.y` (the stub is `y` and the
      base `x_` loses its underscore). So a name normalized twice, as `parse_file_info`
      of utils.py does with URL-derived names, can differ from one normalized once. */
  lemma NormalizeNotIdempotent(x: string, y: string)
    requires |x| > 0 && |y| > 0 && Ascii(x) && Ascii(y)
    requires SepFree(x) && '.' !in x && '_' !in x
    requires SepFree(y) && '.' !in y && '_' !in y
    ensures Normalize(x + "_." + y + ".") == x + "_." + y
    ensures Normalize(x + "_." + y) == x + "." + y
  {
    NormalizeKeepsInnerUnderscore(x, y);
    NormalizeDropsUnderscore(x, y);
  }

  lemma NormalizeKeepsInnerUnderscore(x: string, y: string)
    requires |x| > 0 && |y| > 0 && Ascii(x) && Ascii(y)
    requires SepFree(x) && '_' !in x
    requires SepFree(y) && '_' !in y
    ensures Normalize(x + "_." + y + ".") == x + "_." + y
  {
    var base := x + "_." + y;
    AsciiConcat(x, "_.");
    AsciiConcat(x + "_.", y);
    SepFreeConcat(x, "_.");
    SepFreeConcat(x + "_.", y);
    KeepsClean(base);
    NormalizeTrailingDot(base);
  }

  lemma NormalizeDropsUnderscore(x: string, y: string)
    requires |x| > 0 && |y| > 0 && Ascii(x) && Ascii(y) && '.' !in y
    requires SepFree(x) && '_' !in x
    ensures Normalize(x + "_." + y) == x + "." + y
  {
    AsciiConcat(x, "_");
    assert x + "_." + y == (x + "_") + "." + y;
    NormalizeWithStub(x + "_", y);
    NormalBaseTrailingUnderscore(x);
  }

  lemma NormalBaseTrailingUnderscore(x: string)
    requires |x| > 0
    requires SepFree(x) && '_' !in x
    ensures NormalBase(x + "_") == x
  {
    SepFreeConcat(x, "_");
    CollapseFree(x + "_");
    StripUnique(x + "_", {'_'}, 0, |x|);
    assert (x + "_")[..|x|] == x;
  }

  lemma SepFreeConcat(a: string, b: string)
    requires SepFree(a)
    requires SepFree(b)
    ensures SepFree(a + b)
  {
    assert forall i :: 0 <= i < |a + b| ==> (a + b)[i] == if i < |a| then a[i] else b[i - |a|];
  }

  /** Spaces and dashes between words become one underscore; the extension is kept. */
  lemma NormalizeWords(x: string, run: string, y: string, ext: string)
    requires |x| > 0 && |y| > 0 && |run| > 0 && |ext| > 0
    requires SepFree(x)
    requires SepFree(y)
    requires AllSep(run)
    requires '.' !in ext
    requires Ascii(x) && Ascii(y) && Ascii(ext)
    requires x[0] != '_' && y[|y| - 1] != '_'
    ensures Normalize(x + run + y + "." + ext) == x + "_" + y + "." + ext
  {
    SepAscii(run);
    AsciiConcat(x, run);
    AsciiConcat(x + run, y);
    NormalizeWithStub(x + run + y, ext);
    NormalBaseWords(x, run, y);
  }

  lemma NormalBaseWords(x: string, run: string, y: string)
    requires |x| > 0 && |y| > 0 && |run| > 0
    requires SepFree(x)
    requires SepFree(y)
    requires AllSep(run)
    requires x[0] != '_' && y[|y| - 1] != '_'
    ensures NormalBase(x + run + y) == x + "_" + y
  {
    var c := x + "_" + y;
    assert Collapse(x + run + y) == c by {
      CollapseWords(x, run, y);
    }
    assert c[0] == x[0] && c[|c| - 1] == y[|y| - 1];
    StripClean(c, {'_'});
  }

  /** Two separator-free words around a run collapse to the words joined by one underscore. */
  lemma CollapseWords(x: string, run: string, y: string)
    requires |x| > 0 && |run| > 0
    requires SepFree(x) && SepFree(y) && AllSep(run)
    ensures Collapse(x + run + y) == x + "_" + y
  {
    CollapseRunThen(run, y);
    CollapseConcat(x, run + y);
    assert x + (run + y) == x + run + y;
    CollapseFree(x);
    SeqAssoc(x, "_", y);
  }

  /** Separators are ASCII characters. */
  lemma SepAscii(run: string)
    requires AllSep(run)
    ensures Ascii(run)
  {
    assert forall c :: c in Sep ==> c as int < 128;
  }

  lemma AsciiConcat(a: string, b: string)
    requires Ascii(a) && Ascii(b)
    ensures Ascii(a + b)
  {
    assert forall i :: 0 <= i < |a + b| ==> (a + b)[i] == if i < |a| then a[i] else b[i - |a|];
  }

  /** A run followed by separator-free text becomes an underscore and that text. */
  lemma CollapseRunThen(run: string, y: string)
    requires |run| > 0 && AllSep(run)
    requires SepFree(y)
    ensures Collapse(run + y) == "_" + y
  {
    SkipFromUnique(run + y, Sep, 0, |run|);
    assert (run + y)[|run|..] == y;
    CollapseFree(y);
  }
}

=== FILE: http.dfy ===
/** What the core sees of HTTP: header maps, responses whose body arrives as a
    stream of chunks, and the outcome of one `session.request` call. */
module Http {
  import opened Results
  import opened PathUtils

  /** Response headers with lower-case names (the case-insensitive lookup of
      `requests` is assumed to have been applied). */
  type Headers = map<string, string>

  /** `headers.get(name)`. */
  function Header(h: Headers, name: string): (r: Option<string>)
    ensures r.Some? <==> name in h
    ensures r.Some? ==> r.value == h[name]
  {
    if name in h then Some(h[name]) else None
  }

  /** The body as `iter_content` yields it: the chunks delivered, and whether the
      iteration then raised instead of finishing. */
  datatype Body = Body(chunks: seq<Bytes>, broken: bool)

  datatype Response = Response(status: int, headers: Headers, url: string, body: Body)

  /** One `session.request` call: a response, a `requests.Timeout`, or any other exception. */
  datatype Outcome = Answered(resp: Response) | TimedOut | Failed

  /** Total number of bytes in a list of chunks. */
  function TotalLength(chunks: seq<Bytes>): nat
  {
    if |chunks| == 0 then 0 else TotalLength(chunks[..|chunks| - 1]) + |chunks[|chunks| - 1]|
  }

  /** The chunks written one after another. */
  function Flatten(chunks: seq<Bytes>): (r: Bytes)
    ensures |r| == TotalLength(chunks)
  {
    if |chunks| == 0 then [] else Flatten(chunks[..|chunks| - 1]) + chunks[|chunks| - 1]
  }

  /** Flattening one more chunk appends it. */
  lemma FlattenStep(chunks: seq<Bytes>, i: nat)
    requires i < |chunks|
    ensures Flatten(chunks[..i + 1]) == Flatten(chunks[..i]) + chunks[i]
  {
    assert chunks[..i + 1][..i] == chunks[..i];
  }
}

=== FILE: http_utils.dfy ===
/** src/http_utils.py: request with redirects and retries, streaming a body to a
    buffer, reading file facts out of response headers, and the HEAD-then-GET
    download into a directory. */
module HttpUtils {
  import opened Results
  import opened Text
  import opened PathUtils
  import opened Http

  // ---------------------------------------------------------------------------
  // baseurl

  /** `baseurl(url)` given the path component of the URL: the last segment once
      trailing slashes are dropped. */
  function Baseurl(urlPath: string): (r: string)
    ensures '/' !in r
    ensures |r| <= |urlPath|
  {
    LastPiece(StripRight(urlPath, {'/'}), '/')
  }

  /** Any number of trailing slashes after the last segment are ignored. */
  lemma {:induction false} BaseurlSegment(prefix: string, seg: string, k: nat)
    requires '/' !in seg && seg != ""
    ensures Baseurl(prefix + "/" + seg + seq(k, _ => '/')) == seg
  {
    var s := prefix + "/" + seg + seq(k, _ => '/');
    var body := prefix + "/" + seg;
    assert s == body + seq(k, _ => '/');
    BackFromUnique(s, {'/'}, 0, |s|, |body|);
    assert StripRight(s, {'/'}) == body;
    assert body == prefix + ['/'] + seg;
    LastPieceAfter(prefix, seg, '/');
  }

  /** A path without a slash, such as `abc` or `abc//`, is its own last segment. */
  lemma {:induction false} BaseurlBare(seg: string, k: nat)
    requires '/' !in seg
    ensures Baseurl(seg + seq(k, _ => '/')) == seg
  {
    var s := seg + seq(k, _ => '/');
    BackFromUnique(s, {'/'}, 0, |s|, |seg|);
    assert StripRight(s, {'/'}) == seg;
  }

  // ---------------------------------------------------------------------------
  // http_request

  /** One call made by `http_request`: the URL requested, what came back, and the
      retry round (from 1) and redirect depth (from 0) it was made in. */
  datatype Call = Call(url: string, outcome: Outcome, retry: nat, depth: nat)

  predicate IsRedirect(o: Outcome)
  {
    o.Answered? && (o.resp.status == 301 || o.resp.status == 302)
  }

  predicate IsOk(o: Outcome)
  {
    o.Answered? && o.resp.status == 200
  }

  /** The outcomes after which the loop makes another call: a redirect, or a timeout. */
  predicate Continues(o: Outcome)
  {
    o.TimedOut? || IsRedirect(o)
  }

  /** Where a redirect points: the `location` header, or the response's own URL. */
  function RedirectTarget(resp: Response): string
  {
    Header(resp.headers, "location").GetOr(resp.url)
  }

  /** URL, retry round and depth of the call that follows `c`, when `c` continues.
      A redirect goes one level deeper, or, once the depth budget is spent, to the
      next round; a timeout abandons the round and retries the same URL. */
  function Next(c: Call, maxDepth: nat): (string, nat, nat)
  {
    if IsRedirect(c.outcome) then
      if c.depth + 1 < maxDepth then (RedirectTarget(c.outcome.resp), c.retry, c.depth + 1)
      else (RedirectTarget(c.outcome.resp), c.retry + 1, 0)
    else (c.url, c.retry + 1, 0)
  }

  /** What `http_request` returns for a trace of calls: the last response when it is a 200. */
  function Final(trace: seq<Call>): (r: Option<Response>)
    ensures r.Some? ==> r.value.status == 200
  {
    if |trace| > 0 && IsOk(trace[|trace| - 1].outcome) then Some(trace[|trace| - 1].outcome.resp)
    else None
  }

  /** The calls of `trace` are the ones `http_request` makes, in order: each got what
      the network gives for its position and URL within the depth budget, the first
      asks for `url` in round 1 at depth 0, and every call but the last redirected or
      timed out and was followed by the call its outcome leads to. */
  predicate Chained(trace: seq<Call>, net: (nat, string) -> Outcome, url: string, maxDepth: nat)
  {
    && (forall k :: 0 <= k < |trace| ==> trace[k].outcome == net(k, trace[k].url) && trace[k].depth < maxDepth)
    && (|trace| > 0 ==> trace[0].url == url && trace[0].retry == 1 && trace[0].depth == 0)
    && (forall k :: 0 <= k < |trace| - 1 ==>
          Continues(trace[k].outcome) &&
          Next(trace[k], maxDepth) == (trace[k + 1].url, trace[k + 1].retry, trace[k + 1].depth))
  }

  /** Every call of `trace` was made in a round from 1 to `bound`. */
  predicate RoundsWithin(trace: seq<Call>, bound: nat)
  {
    forall k :: 0 <= k < |trace| ==> 1 <= trace[k].retry <= bound
  }

  /** The next call after `trace` is the one to `cur` in round `retry` at depth `depth`. */
  predicate Expects(trace: seq<Call>, url: string, maxDepth: nat, cur: string, retry: nat, depth: nat)
  {
    if |trace| == 0 then cur == url && retry == 1 && depth == 0
    else Continues(trace[|trace| - 1].outcome) && Next(trace[|trace| - 1], maxDepth) == (cur, retry, depth)
  }

  /** Making the expected call keeps the trace chained. */
  lemma ChainedExtend(trace: seq<Call>, net: (nat, string) -> Outcome, url: string, maxDepth: nat, c: Call, bound: nat)
    requires Chained(trace, net, url, maxDepth) && RoundsWithin(trace, bound)
    requires Expects(trace, url, maxDepth, c.url, c.retry, c.depth)
    requires c.outcome == net(|trace|, c.url) && c.depth < maxDepth && 1 <= c.retry <= bound
    ensures Chained(trace + [c], net, url, maxDepth) && RoundsWithin(trace + [c], bound)
  {
  }

  lemma MulStep(a: nat, b: nat)
    ensures a * b + b == (a + 1) * b
  {
  }

  lemma MulMono(a: nat, c: nat, b: nat)
    requires a <= c
    ensures a * b <= c * b
  {
  }

  /** One pass of the inner loop of `http_request`, in round `retry`: calls follow
      redirects until a call neither redirects nor times out (`over`), a call times out,
      or `maxDepth` calls have been made. */
  method Round(net: (nat, string) -> Outcome, url: string, maxDepth: nat,
               trace0: seq<Call>, cur0: string, retry: nat)
    returns (trace: seq<Call>, cur: string, over: bool)
    requires maxDepth > 0 && retry >= 1
    requires Chained(trace0, net, url, maxDepth) && RoundsWithin(trace0, retry)
    requires Expects(trace0, url, maxDepth, cur0, retry, 0)
    ensures Chained(trace, net, url, maxDepth) && RoundsWithin(trace, retry)
    ensures |trace0| < |trace| <= |trace0| + maxDepth
    ensures over <==> !Continues(trace[|trace| - 1].outcome)
    ensures !over ==> Expects(trace, url, maxDepth, cur, retry + 1, 0)
  {
    trace := trace0;
    cur := cur0;
    var depth := 0;
    while true
      invariant depth < maxDepth
      invariant |trace| == |trace0| + depth
      invariant Chained(trace, net, url, maxDepth) && RoundsWithin(trace, retry)
      invariant Expects(trace, url, maxDepth, cur, retry, depth)
      decreases maxDepth - depth
    {
      var c := Call(cur, net(|trace|, cur), retry, depth);
      ChainedExtend(trace, net, url, maxDepth, c, retry);
      trace := trace + [c];
      if !IsRedirect(c.outcome) {
        over := !c.outcome.TimedOut?;
        return;
      }
      cur := RedirectTarget(c.outcome.resp);
      if depth + 1 == maxDepth {
        over := false;
        return;
      }
      depth := depth + 1;
    }
  }

  /** The calls `http_request` makes: chained, all within `maxRetry` rounds, none at
      all exactly when there is no round or no depth, and ending either with an outcome
      that stops the loop or with one whose follow-up would need round `maxRetry + 1`. */
  predicate RequestTrace(trace: seq<Call>, net: (nat, string) -> Outcome, url: string, maxRetry: nat, maxDepth: nat)
  {
    && Chained(trace, net, url, maxDepth)
    && RoundsWithin(trace, maxRetry)
    && (|trace| > 0 && Continues(trace[|trace| - 1].outcome) ==> Next(trace[|trace| - 1], maxDepth).1 == maxRetry + 1)
    && (|trace| == 0 <==> maxRetry == 0 || maxDepth == 0)
  }

  /** `http_request(session, method, url, max_retry, max_depth)`. The network is the
      function `net`: `net(n, u)` is what the `n`-th call (from 0) gets when it asks for `u`.
      Returns the response and the calls made, in order. The request gives up with
      `None` on the first answer that is neither a redirect nor a 200 and on any error
      other than a timeout, and after `max_retry` rounds. */
  method HttpRequest(net: (nat, string) -> Outcome, url: string, maxRetry: nat, maxDepth: nat)
    returns (resp: Option<Response>, trace: seq<Call>)
    ensures resp == Final(trace)
    ensures RequestTrace(trace, net, url, maxRetry, maxDepth)
    ensures |trace| <= maxRetry * maxDepth
  {
    trace := [];
    var cur := url;
    var retry := 1;
    while retry <= maxRetry
      invariant 1 <= retry <= maxRetry + 1
      invariant |trace| <= (retry - 1) * maxDepth
      invariant (retry > 1 && maxDepth > 0) <==> |trace| > 0
      invariant Chained(trace, net, url, maxDepth) && RoundsWithin(trace, retry - 1)
      invariant maxDepth > 0 ==> Expects(trace, url, maxDepth, cur, retry, 0)
    {
      if maxDepth > 0 {
        var over;
        trace, cur, over := Round(net, url, maxDepth, trace, cur, retry);
        MulStep(retry - 1, maxDepth);
        if over {
          MulMono(retry, maxRetry, maxDepth);
          resp := Final(trace);
          return;
        }
      }
      MulStep(retry - 1, maxDepth);
      retry := retry + 1;
    }
    resp := None;
    MulMono(retry - 1, maxRetry, maxDepth);
  }

  /** A server that answers the first request with 200 is asked exactly once. */
  lemma FirstAnswerOk(trace: seq<Call>, net: (nat, string) -> Outcome, url: string, maxRetry: nat, maxDepth: nat)
    requires RequestTrace(trace, net, url, maxRetry, maxDepth)
    requires maxRetry > 0 && maxDepth > 0
    requires IsOk(net(0, url))
    ensures |trace| == 1 && Final(trace) == Some(net(0, url).resp)
  {
  }

  /** Any other answer that is not a redirect, and any error other than a timeout, ends
      the loop at once with `None`: there are no further rounds. */
  lemma FirstAnswerFinal(trace: seq<Call>, net: (nat, string) -> Outcome, url: string, maxRetry: nat, maxDepth: nat)
    requires RequestTrace(trace, net, url, maxRetry, maxDepth)
    requires maxRetry > 0 && maxDepth > 0
    requires !Continues(net(0, url)) && !IsOk(net(0, url))
    ensures |trace| == 1 && Final(trace).None?
  {
  }

  /** A retry does not go back to the original URL: after a redirect to `loc` and a
      timeout there, the next round asks `loc` again, since `url` was overwritten. */
  lemma RetryKeepsRedirect(trace: seq<Call>, net: (nat, string) -> Outcome, url: string, maxRetry: nat, maxDepth: nat, loc: string)
    requires RequestTrace(trace, net, url, maxRetry, maxDepth)
    requires maxRetry >= 2 && maxDepth >= 2
    requires IsRedirect(net(0, url)) && RedirectTarget(net(0, url).resp) == loc
    requires net(1, loc) == TimedOut
    ensures |trace| >= 3
    ensures trace[1] == Call(loc, TimedOut, 1, 1)
    ensures trace[2].url == loc && trace[2].retry == 2 && trace[2].depth == 0
  {
    assert trace[0] == Call(url, net(0, url), 1, 0);
    assert Next(trace[0], maxDepth) == (loc, 1, 1);
    assert trace[1] == Call(loc, TimedOut, 1, 1);
    assert Next(trace[1], maxDepth) == (loc, 2, 0);
  }

  /** When every call times out, each round makes one call to the original URL, and
      there are exactly `maxRetry` of them. */
  lemma {:induction false} AllTimeouts(trace: seq<Call>, net: (nat, string) -> Outcome, url: string, maxRetry: nat, maxDepth: nat)
    requires RequestTrace(trace, net, url, maxRetry, maxDepth)
    requires maxDepth > 0
    requires forall n: nat, u: string :: net(n, u) == TimedOut
    ensures |trace| == maxRetry
    ensures forall k :: 0 <= k < |trace| ==> trace[k] == Call(url, TimedOut, k + 1, 0)
    ensures Final(trace).None?
  {
    var k := 0;
    while k < |trace|
      invariant k <= |trace|
      invariant forall i :: 0 <= i < k ==> trace[i] == Call(url, TimedOut, i + 1, 0)
    {
      assert trace[k].outcome == net(k, trace[k].url);
      if k > 0 {
        assert Next(trace[k - 1], maxDepth) == (trace[k].url, trace[k].retry, trace[k].depth);
      }
      k := k + 1;
    }
    if |trace| > 0 {
      assert Next(trace[|trace| - 1], maxDepth).1 == |trace| + 1;
    }
  }

  /** A server that redirects every request is asked exactly `maxRetry * maxDepth`
      times: the depth budget runs out in every round, and the request gives up. */
  lemma {:induction false} EndlessRedirects(trace: seq<Call>, net: (nat, string) -> Outcome, url: string, maxRetry: nat, maxDepth: nat)
    requires RequestTrace(trace, net, url, maxRetry, maxDepth)
    requires forall n: nat, u: string :: IsRedirect(net(n, u))
    ensures |trace| == maxRetry * maxDepth
    ensures Final(trace).None?
  {
    if |trace| == 0 {
      return;
    }
    var k := 0;
    while k < |trace|
      invariant k <= |trace|
      invariant forall i :: 0 <= i < k ==> i == (trace[i].retry - 1) * maxDepth + trace[i].depth
    {
      if k > 0 {
        assert IsRedirect(trace[k - 1].outcome);
        assert Next(trace[k - 1], maxDepth) == (trace[k].url, trace[k].retry, trace[k].depth);
        MulStep(trace[k - 1].retry - 1, maxDepth);
      }
      k := k + 1;
    }
    var last := trace[|trace| - 1];
    assert IsRedirect(last.outcome);
    assert last.depth + 1 == maxDepth && last.retry == maxRetry;
    MulStep(maxRetry - 1, maxDepth);
  }

  // ---------------------------------------------------------------------------
  // stream_to_buf

  /** Whether `int(resp.headers.get('content-length', 0))` raises. */
  predicate ContentLengthRaises(h: Headers)
  {
    "content-length" in h && PyInt(h["content-length"]).None?
  }

  /** `stream_to_buf(resp, buf, content_length=contentLength)`: writes every chunk the
      body yields into the buffer. `Err` when the header lookup made for a zero
      `content_length` raises (it sits outside the `try`); otherwise `Ok((status, buffer))`
      where the status is `False` exactly when the iteration raised. The length is only
      used for progress lines, so it never affects the status. */
  method StreamToBuf(resp: Response, buf: Bytes, contentLength: int) returns (r: Result<(bool, Bytes)>)
    ensures r.Err? <==> contentLength == 0 && ContentLengthRaises(resp.headers)
    ensures r.Ok? ==> r.value.0 == !resp.body.broken
    ensures r.Ok? ==> r.value.1 == buf + Flatten(resp.body.chunks)
  {
    if contentLength == 0 && ContentLengthRaises(resp.headers) {
      return Err("ValueError");
    }
    var chunks := resp.body.chunks;
    var out := buf;
    var i := 0;
    while i < |chunks|
      invariant 0 <= i <= |chunks|
      invariant out == buf + Flatten(chunks[..i])
    {
      FlattenStep(chunks, i);
      out := out + chunks[i];
      i := i + 1;
    }
    assert chunks[..i] == chunks;
    r := Ok((!resp.body.broken, out));
  }

  // ---------------------------------------------------------------------------
  // Header parsing

  /** The characters `parse_headers_file_name` strips from both ends of the name:
      quote, backslash, double quote, dot, semicolon, closing parenthesis, star, space. */
  const NameJunk: set<char> := {'\'', '\\', '"', '.', ';', ')', '*', ' '}

  /** The file name found in a `content-disposition` value before the final strip:
      the `filename=` value without surrounding double quotes; failing that, the
      `filename*=` value likewise, minus seven characters (`UTF-8''`) when it starts
      with `utf-8` in any case; failing both, empty. */
  function DispositionName(cd: string): string
  {
    match FindGroup(cd, "filename=")
    case Some(g) => Strip(g, {'"'})
    case None =>
      match FindGroup(cd, "filename*=")
      case Some(g) =>
        var v := Strip(g, {'"'});
        if StartsWith(Lower(v), "utf-8") then Drop(v, 7) else v
      case None => ""
  }

  /** `parse_headers_file_name(headers)`. */
  function ParseHeadersFileName(h: Headers): (r: string)
    ensures |r| > 0 ==> r[0] !in NameJunk && r[|r| - 1] !in NameJunk
    ensures '\n' !in r
    ensures "content-disposition" !in h ==> r == ""
  {
    var cd := if "content-disposition" in h then h["content-disposition"] else "";
    StrippedNameFacts(cd);
    Strip(DispositionName(cd), NameJunk)
  }

  /** The stripped name has clean ends, no line break, and is empty for an empty value. */
  lemma StrippedNameFacts(cd: string)
    ensures var r := Strip(DispositionName(cd), NameJunk);
            && (|r| > 0 ==> r[0] !in NameJunk && r[|r| - 1] !in NameJunk)
            && '\n' !in r
            && (cd == "" ==> r == "")
  {
    DispositionNameLine(cd);
    StripKeepsOut(DispositionName(cd), NameJunk, '\n');
  }

  lemma DispositionNameLine(cd: string)
    ensures '\n' !in DispositionName(cd)
  {
    match FindGroup(cd, "filename=")
    case Some(g) =>
      StripKeepsOut(g, {'"'}, '\n');
    case None =>
      match FindGroup(cd, "filename*=")
      case Some(g) =>
        var v := Strip(g, {'"'});
        StripKeepsOut(g, {'"'}, '\n');
      case None =>
  }

  /** A plain `filename=` parameter wins over `filename*=`, and the double quotes it
      loses first are also in the final strip set, so only one strip is visible. */
  lemma {:induction false} FileNamePlainParameter(h: Headers, g: string)
    requires "content-disposition" in h
    requires FindGroup(h["content-disposition"], "filename=") == Some(g)
    ensures ParseHeadersFileName(h) == Strip(g, NameJunk)
  {
    StripAbsorb(g, {'"'}, NameJunk);
  }

  /** Without a plain parameter, an RFC 5987 `filename*=` value loses its charset
      prefix of seven characters when it starts with `utf-8` (any case). */
  lemma {:induction false} FileNameExtendedParameter(h: Headers, g: string)
    requires "content-disposition" in h
    requires FindGroup(h["content-disposition"], "filename=").None?
    requires FindGroup(h["content-disposition"], "filename*=") == Some(g)
    ensures StartsWith(Lower(Strip(g, {'"'})), "utf-8") ==>
              ParseHeadersFileName(h) == Strip(Drop(Strip(g, {'"'}), 7), NameJunk)
    ensures !StartsWith(Lower(Strip(g, {'"'})), "utf-8") ==>
              ParseHeadersFileName(h) == Strip(g, NameJunk)
  {
    StripAbsorb(g, {'"'}, NameJunk);
  }

  /** A server-supplied `filename=../x` keeps its slash after the strip (the dots are
      junk, the slash is not), so joining it to the download directory yields the
      absolute path `/x`, outside that directory. */
  lemma DispositionEscapesDir(h: Headers, dstDir: Path, x: string)
    requires "content-disposition" in h
    requires FindGroup(h["content-disposition"], "filename=") == Some("../" + x)
    requires x == "" || x[|x| - 1] !in NameJunk
    ensures ParseHeadersFileName(h) == "/" + x
    ensures PathJoin(dstDir, ParseHeadersFileName(h)) == "/" + x
  {
    FileNamePlainParameter(h, "../" + x);
    StripDotDot(x);
  }

  /** The two leading dots of `../x` are junk; the slash after them is not. */
  lemma StripDotDot(x: string)
    requires x == "" || x[|x| - 1] !in NameJunk
    ensures Strip("../" + x, NameJunk) == "/" + x
  {
    var g := "../" + x;
    assert g[0] == '.' && g[1] == '.' && g[2] == '/';
    assert g[|g| - 1] !in NameJunk by {
      if x != "" {
        assert g[|g| - 1] == x[|x| - 1];
      }
    }
    assert g[2..] == "/" + x;
    StripUnique(g, NameJunk, 2, |g|);
  }

  /** A disposition with no parameter of either form yields no name. */
  lemma FileNameAbsent(h: Headers)
    requires "content-disposition" in h
    requires FindGroup(h["content-disposition"], "filename=").None?
    requires FindGroup(h["content-disposition"], "filename*=").None?
    ensures ParseHeadersFileName(h) == ""
  {
    assert Strip("", NameJunk) == "" by {
      StripClean("", NameJunk);
    }
  }

  /** `parse_headers_content_length(headers)`: the header's value when it is all
      digits, 0 otherwise (and 0 when absent). */
  function ParseHeadersContentLength(h: Headers): (r: nat)
    ensures "content-length" !in h ==> r == 0
    ensures "content-length" in h && !IsNumeric(h["content-length"]) ==> r == 0
  {
    var v := Header(h, "content-length").GetOr("0");
    if IsNumeric(v) then DecimalValue(v) else 0
  }

  /** A length written as a decimal numeral is read back. */
  lemma ContentLengthRoundTrip(h: Headers, n: nat)
    requires "content-length" in h && h["content-length"] == NatToDecimal(n)
    ensures ParseHeadersContentLength(h) == n
  {
    DecimalRoundTrip(n);
  }

  /** A signed length such as "-5" is not numeric, so it reads as 0. */
  lemma ContentLengthSigned(h: Headers, n: nat)
    requires "content-length" in h && h["content-length"] == "-" + NatToDecimal(n)
    ensures ParseHeadersContentLength(h) == 0
  {
    assert !IsDigit(h["content-length"][0]);
  }

  /** `parse_headers_content_type(headers)`. */
  function ParseHeadersContentType(h: Headers): (r: string)
    ensures "content-type" in h ==> r == h["content-type"]
    ensures "content-type" !in h ==> r == ""
  {
    Header(h, "content-type").GetOr("")
  }

  /** `file_info_t`. */
  datatype FileInfo = FileInfo(fileName: string, fileType: ExtractedFileType, fileSize: nat,
                               contentDisposition: string, contentType: string)

  /** `parse_file_info(headers, url)`, given the path component of the URL. */
  function ParseFileInfo(h: Headers, urlPath: string): (r: FileInfo)
    ensures r.fileType.src == r.fileName
    ensures r.fileType == ExtractFileType(r.fileName)
    ensures ParseHeadersFileName(h) != "" ==> r.fileName == ParseHeadersFileName(h)
    ensures ParseHeadersFileName(h) == "" ==> r.fileName == Baseurl(urlPath)
    ensures "content-disposition" !in h ==> r.fileName == Baseurl(urlPath) && r.contentDisposition == ""
    ensures "content-disposition" in h ==> r.contentDisposition == h["content-disposition"]
    ensures r.fileSize == ParseHeadersContentLength(h)
    ensures r.contentType == ParseHeadersContentType(h)
  {
    var name := ParseHeadersFileName(h);
    var fileName := if name != "" then name else Baseurl(urlPath);
    FileInfo(fileName, ExtractFileType(fileName), ParseHeadersContentLength(h),
             Header(h, "content-disposition").GetOr(""), ParseHeadersContentType(h))
  }

  // ---------------------------------------------------------------------------
  // download_file

  /** A file already at `dst` with the advertised size is kept as it is. */
  predicate Kept(t: Tree, dst: Path, size: nat)
  {
    dst in t.files && |t.files[dst]| == size
  }

  /** The part of `download_file` once the destination is known: keep a file of the
      advertised size; otherwise delete a stale one, GET, and stream the body into the
      file. `Ok(status)`, or `Err` when opening the file or the length lookup raises. */
  method Materialize(getNet: (nat, string) -> Outcome, url: string, dst: Path, size: nat, fs: Tree)
    returns (r: Result<bool>, fs': Tree, getTrace: seq<Call>)
    requires WF(fs)
    ensures WF(fs') && fs'.dirs == fs.dirs
    ensures Kept(fs, dst, size) ==> r == Ok(true) && getTrace == [] && fs' == fs
    ensures !Kept(fs, dst, size) ==> |getTrace| > 0 && RequestTrace(getTrace, getNet, url, 3, 10)
    ensures !Kept(fs, dst, size) && Final(getTrace).None? ==> r == Ok(false) && fs'.files == fs.files - {dst}
    ensures !Kept(fs, dst, size) && Final(getTrace).Some? ==>
              (r.Err? <==> !Writable(fs, dst) || (size == 0 && ContentLengthRaises(Final(getTrace).value.headers)))
    ensures !Kept(fs, dst, size) && Final(getTrace).Some? && r.Ok? ==>
              r.value == !Final(getTrace).value.body.broken &&
              fs'.files == fs.files[dst := Flatten(Final(getTrace).value.body.chunks)]
    ensures r.Err? ==> fs'.files - {dst} == fs.files - {dst}
  {
    fs' := fs;
    getTrace := [];
    if dst in fs.files {
      if |fs.files[dst]| != size {
        fs' := RemoveFile(fs, dst);
      } else {
        r := Ok(true);
        return;
      }
    }
    assert Writable(fs', dst) == Writable(fs, dst);
    var get;
    get, getTrace := HttpRequest(getNet, url, 3, 10);
    if get.None? {
      r := Ok(false);
      return;
    }
    var created := OpenForWrite(fs', dst);
    if created.Err? {
      r := Err(created.error);
      return;
    }
    var streamed := StreamToBuf(get.value, [], size);
    if streamed.Err? {
      fs' := created.value;
      r := Err(streamed.error);
      return;
    }
    assert streamed.value.1 == Flatten(get.value.body.chunks);
    fs' := Tree(fs.files[dst := streamed.value.1], fs.dirs);
    r := Ok(streamed.value.0);
  }

  /** What `download_file` returns: `(status, dst_path, file_info)`. */
  datatype Download = Download(ok: bool, path: Option<Path>, info: Option<FileInfo>)

  /** `download_file(session, url, dst_dir)`: HEAD for the file facts, make the
      directory, then materialize the file at `dst_dir` joined with the file name.
      `headNet` and `getNet` answer the two requests; the URL's path is given. */
  method DownloadFile(headNet: (nat, string) -> Outcome, getNet: (nat, string) -> Outcome,
                      url: string, urlPath: string, dstDir: Path, fs: Tree)
    returns (r: Result<Download>, fs': Tree, headTrace: seq<Call>, getTrace: seq<Call>)
    requires WF(fs)
    ensures WF(fs')
    ensures RequestTrace(headTrace, headNet, url, 3, 10)
    ensures Final(headTrace).None? ==> r == Ok(Download(false, None, None)) && getTrace == [] && fs' == fs
    ensures Final(headTrace).Some? && EnsureDir(fs, dstDir).Err? ==> r.Err? && getTrace == [] && fs' == fs
    ensures Final(headTrace).Some? && EnsureDir(fs, dstDir).Ok? ==>
              var info := ParseFileInfo(Final(headTrace).value.headers, urlPath);
              var dst := PathJoin(dstDir, info.fileName);
              var made := EnsureDir(fs, dstDir).value.0;
              && (r.Ok? ==> r.value.path == Some(dst) && r.value.info == Some(info))
              && fs'.dirs == made.dirs
              && (Kept(fs, dst, info.fileSize) ==> r.Ok? && r.value.ok && getTrace == [] && fs' == made)
              && (!Kept(fs, dst, info.fileSize) ==> |getTrace| > 0 && RequestTrace(getTrace, getNet, url, 3, 10))
              && (!Kept(fs, dst, info.fileSize) && Final(getTrace).None? ==>
                    r.Ok? && !r.value.ok && fs'.files == fs.files - {dst})
              && (!Kept(fs, dst, info.fileSize) && Final(getTrace).Some? && r.Ok? ==>
                    r.value.ok == !Final(getTrace).value.body.broken &&
                    fs'.files == fs.files[dst := Flatten(Final(getTrace).value.body.chunks)])
              && (!Kept(fs, dst, info.fileSize) && Final(getTrace).Some? ==>
                    (r.Err? <==> !Writable(made, dst) ||
                                 (info.fileSize == 0 && ContentLengthRaises(Final(getTrace).value.headers))))
              && (r.Err? ==> fs'.files - {dst} == fs.files - {dst})
  {
    var head;
    head, headTrace := HttpRequest(headNet, url, 3, 10);
    getTrace := [];
    fs' := fs;
    if head.None? {
      r := Ok(Download(false, None, None));
      return;
    }
    var made := EnsureDir(fs, dstDir);
    if made.Err? {
      r := Err(made.error);
      return;
    }
    assert made.value.0.files == fs.files;
    var info := ParseFileInfo(head.value.headers, urlPath);
    var dst := PathJoin(dstDir, info.fileName);
    var status;
    status, fs', getTrace := Materialize(getNet, url, dst, info.fileSize, made.value.0);
    assert Kept(fs, dst, info.fileSize) == Kept(made.value.0, dst, info.fileSize);
    match status
    case Ok(ok) => r := Ok(Download(ok, Some(dst), Some(info)));
    case Err(e) => r := Err(e);
  }
}

=== FILE: path_utils.dfy ===
/** File-name classification and the file-tree operations of `src/path_utils.py`:
    `extract_file_type`, `ensure_dir`, `copy2`, `copy2_r`, `rmtree_d` and the staged
    archive extraction (`archive_extract_zip` / `archive_extract_tar`).

    A directory's contents are modelled as a `Tree`: a map from relative path to
    file bytes plus the set of relative directory paths. The empty path stands for
    the tree's own root, which always exists and is never listed. */
module PathUtils {
  import opened Results
  import opened Text

  // ---------------------------------------------------------------------------
  // extract_file_type

  /** Python's `ExtractedFileType(src, file_name, file_extension)` named tuple. */
  datatype ExtractedFileType = ExtractedFileType(src: string, fileName: string, fileExtension: string)

  /** Does the name end with a `.tar` segment that a final extension can attach to? */
  predicate EndsWithTarSegment(x: string)
  {
    EndsWith(x, ".tar")
  }

  /** Splits a file name into base name and extension. A `tar` penultimate segment
      joins the extension (`a.tar.gz` has extension `tar.gz`); a name without a dot
      has the empty extension. */
  function ExtractFileType(s: string): (r: ExtractedFileType)
    ensures r.src == s
    ensures '.' !in s ==> r.fileName == s && r.fileExtension == ""
    ensures '.' in s ==> r.fileName + "." + r.fileExtension == s
  {
    var splits := Split(s, '.');
    var n := |splits|;
    JoinSplit(s, '.');
    if n > 2 && splits[n - 2] == "tar" then
      assert splits == splits[..n - 2] + splits[n - 2..];
      JoinConcat(splits[..n - 2], splits[n - 2..], '.');
      ExtractedFileType(Join(splits, '.'), Join(splits[..n - 2], '.'), Join(splits[n - 2..], '.'))
    else if n > 1 then
      assert splits == splits[..n - 1] + [splits[n - 1]];
      JoinConcat(splits[..n - 1], [splits[n - 1]], '.');
      ExtractedFileType(Join(splits, '.'), Join(splits[..n - 1], '.'), splits[n - 1])
    else
      assert s == splits[0];
      ExtractedFileType(Join(splits, '.'), s, "")
  }

  lemma {:induction false} SplitTarSuffix(x: string, e: string)
    requires '.' !in e
    ensures Split(x + ".tar." + e, '.') == Split(x, '.') + ["tar", e]
  {
    var t := "tar" + ['.'] + e;
    assert x + ".tar." + e == x + ['.'] + t;
    SplitConcat(x, t, '.');
    SplitConcat("tar", e, '.');
    SplitNoSep("tar", '.');
    SplitNoSep(e, '.');
  }

  /** `x.tar.e` has extension `tar.e` and file name `x`, whatever `x` is. */
  lemma {:induction false} ExtractFileTypeTar(x: string, e: string)
    requires '.' !in e
    ensures ExtractFileType(x + ".tar." + e) == ExtractedFileType(x + ".tar." + e, x, "tar." + e)
  {
    var s := x + ".tar." + e;
    SplitTarSuffix(x, e);
    JoinSplit(s, '.');
    assert ["tar", e][1..] == [e];
    assert Join(["tar", e], '.') == "tar." + e;
    var px := Split(x, '.');
    var splits := px + ["tar", e];
    var n := |splits|;
    assert splits[..n - 2] == px;
    assert splits[n - 2..] == ["tar", e];
    JoinSplit(x, '.');
  }

  /** A last piece `tar` after at least one dot means the name ends with `.tar`. */
  lemma {:induction false} TarPieceEnds(x: string)
    ensures |Split(x, '.')| >= 2 && Split(x, '.')[|Split(x, '.')| - 1] == "tar" ==> EndsWithTarSegment(x)
  {
    var px := Split(x, '.');
    var m := |px|;
    JoinSplit(x, '.');
    if m >= 2 {
      assert px == px[..m - 1] + [px[m - 1]];
      JoinConcat(px[..m - 1], [px[m - 1]], '.');
    }
  }

  /** Any other dotted name `x.e` (with `e` dot-free) has extension `e` and file name `x`. */
  lemma {:induction false} ExtractFileTypePlain(x: string, e: string)
    requires '.' !in e
    requires !EndsWithTarSegment(x)
    ensures ExtractFileType(x + "." + e) == ExtractedFileType(x + "." + e, x, e)
  {
    SplitConcat(x, e, '.');
    SplitNoSep(e, '.');
    TarPieceEnds(x);
    var px := Split(x, '.');
    var splits := px + [e];
    var n := |splits|;
    assert splits[..n - 1] == px;
    JoinSplit(x, '.');
  }

  // ---------------------------------------------------------------------------
  // Trees

  newtype byte = x: int | 0 <= x < 256

  type Bytes = seq<byte>

  type Path = string

  datatype Tree = Tree(files: map<Path, Bytes>, dirs: set<Path>)

  const EmptyTree: Tree := Tree(map[], {})

  /** The proper ancestors of a relative path: every prefix ending before a `/`. */
  function Parents(p: Path): set<Path>
  {
    set i | 0 < i < |p| && p[i] == '/' :: p[..i]
  }

  /** `os.path.dirname` for relative paths: everything before the last `/`, or the root. */
  function Dirname(p: Path): (d: Path)
    ensures d == "" || d in Parents(p)
  {
    var last := LastPiece(p, '/');
    if |last| == |p| then ""
    else
      var i := |p| - |last| - 1;
      if i == 0 then "" else p[..i]
  }

  /** `q` lies strictly inside directory `p` (everything lies inside the root). */
  predicate Under(q: Path, p: Path)
  {
    if p == "" then q != ""
    else |q| > |p| && q[..|p|] == p && q[|p|] == '/'
  }

  /** What a real directory tree guarantees: the root is implicit, nothing is both a
      file and a directory, and every ancestor of an entry is a directory. */
  predicate WF(t: Tree)
  {
    && "" !in t.dirs && "" !in t.files
    && t.files.Keys !! t.dirs
    && (forall f :: f in t.files ==> Parents(f) <= t.dirs)
    && (forall d :: d in t.dirs ==> Parents(d) <= t.dirs)
  }

  lemma ParentsOfParent(p: Path, q: Path)
    requires q in Parents(p)
    ensures Parents(q) <= Parents(p)
  {
    var i :| 0 < i < |p| && p[i] == '/' && q == p[..i];
    forall r | r in Parents(q) ensures r in Parents(p) {
      var j :| 0 < j < |q| && q[j] == '/' && r == q[..j];
      assert p[j] == '/' && r == p[..j];
    }
  }

  // ---------------------------------------------------------------------------
  // ensure_dir and copy2

  /** `ensure_dir(path)`: creates the directory and its missing ancestors unless it is
      already a directory. Returns the path when it created it, `None` otherwise; fails
      (as `os.makedirs` raises) when the path or an ancestor is a file. */
  function EnsureDir(t: Tree, p: Path): (r: Result<(Tree, Option<Path>)>)
    ensures r.Err? <==> p != "" && p !in t.dirs && (p in t.files || Parents(p) * t.files.Keys != {})
    ensures r.Ok? ==> r.value.0.files == t.files && t.dirs <= r.value.0.dirs
    ensures r.Ok? ==> p == "" || p in r.value.0.dirs
    ensures r.Ok? ==> (r.value.1 == Some(p) <==> p != "" && p !in t.dirs)
    ensures r.Ok? ==> (r.value.1 == None <==> p == "" || p in t.dirs)
    ensures r.Ok? && r.value.1 == None ==> r.value.0 == t
    ensures r.Ok? ==> r.value.0.dirs <= t.dirs + {p} + Parents(p)
    ensures r.Ok? && WF(t) ==> WF(r.value.0)
  {
    if p == "" || p in t.dirs then Ok((t, None))
    else if p in t.files || Parents(p) * t.files.Keys != {} then Err("FileExistsError")
    else
      var t' := Tree(t.files, t.dirs + {p} + Parents(p));
      assert WF(t) ==> WF(t') by {
        if WF(t) {
          forall d | d in t'.dirs ensures Parents(d) <= t'.dirs {
            if d in Parents(p) { ParentsOfParent(p, d); }
          }
          assert "" !in Parents(p);
        }
      }
      Ok((t', Some(p)))
  }

  /** `copy2(src, dst)`: makes sure the destination's directory exists, then writes the
      bytes over whatever file was there. Writing onto a directory fails. */
  function Copy2(t: Tree, p: Path, data: Bytes): (r: Result<Tree>)
    ensures r.Ok? ==> p in r.value.files && r.value.files[p] == data
    ensures r.Ok? ==> forall q :: q in t.files && q != p ==> q in r.value.files && r.value.files[q] == t.files[q]
    ensures r.Ok? ==> r.value.files.Keys == t.files.Keys + {p}
    ensures r.Ok? ==> t.dirs <= r.value.dirs
    ensures r.Ok? && WF(t) ==> WF(r.value)
    ensures WF(t) && (Dirname(p) == "" || Dirname(p) in t.dirs) ==>
              (r.Err? <==> p == "" || p in t.dirs)
    ensures WF(t) && (Dirname(p) == "" || Dirname(p) in t.dirs) && r.Ok? ==> r.value.dirs == t.dirs
  {
    match EnsureDir(t, Dirname(p))
    case Err(e) => Err(e)
    case Ok((t1, _)) =>
      if p == "" || p in t1.dirs then Err("IsADirectoryError")
      else
        var t2 := Tree(t1.files[p := data], t1.dirs);
        assert WF(t1) ==> WF(t2) by {
          if WF(t1) {
            forall q | q in Parents(p) ensures q in t1.dirs {
              var d := Dirname(p);
              if d != "" { ParentsOfParent(p, d); }
              ParentsBelowDirname(p, q);
            }
          }
        }
        Ok(t2)
  }

  /** Every proper ancestor of `p` is its dirname or an ancestor of its dirname. */
  lemma ParentsBelowDirname(p: Path, q: Path)
    requires q in Parents(p)
    ensures Dirname(p) != "" && (q == Dirname(p) || q in Parents(Dirname(p)))
  {
    var i :| 0 < i < |p| && p[i] == '/' && q == p[..i];
    var last := LastPiece(p, '/');
    assert '/' in p;
    var k := |p| - |last| - 1;
    assert p[k] == '/';
    assert forall m :: k < m < |p| ==> p[m] == last[m - k - 1];
    assert i <= k;
    assert Dirname(p) == p[..k];
    if i < k {
      assert q == p[..k][..i];
    }
  }

  // ---------------------------------------------------------------------------
  // copy2_r

  /** Merging `src` into `dst` would put a directory where a file is or vice versa. */
  predicate Conflict(src: Tree, dst: Tree)
  {
    src.dirs * dst.files.Keys != {} || src.files.Keys * dst.dirs != {}
  }

  /** `copy2_r(src, dst)`: merges the tree `src` into `dst`. Every directory of `src` is
      created in `dst`, every file of `src` is copied over with its bytes, and files of
      `dst` that `src` does not have are left alone. The walk fails exactly when a
      directory of one tree sits where the other has a file. */
  method Copy2R(src: Tree, dst: Tree) returns (r: Result<Tree>)
    requires WF(src) && WF(dst)
    ensures r.Err? <==> Conflict(src, dst)
    ensures r.Ok? ==> WF(r.value)
    ensures r.Ok? ==> r.value.dirs == dst.dirs + src.dirs
    ensures r.Ok? ==> r.value.files.Keys == dst.files.Keys + src.files.Keys
    ensures r.Ok? ==> forall p :: p in src.files ==> r.value.files[p] == src.files[p]
    ensures r.Ok? ==> forall p :: p in dst.files && p !in src.files ==> r.value.files[p] == dst.files[p]
  {
    var made := CreateDirs(src, dst);
    if made.Err? {
      return Err(made.error);
    }
    assert src.files.Keys * made.value.dirs == src.files.Keys * dst.dirs;
    r := CopyFiles(src, made.value);
  }

  /** The directory half of `copy2_r`: `ensure_dir` for every directory of `src`. */
  method CreateDirs(src: Tree, dst: Tree) returns (r: Result<Tree>)
    requires WF(src) && WF(dst)
    ensures r.Err? <==> src.dirs * dst.files.Keys != {}
    ensures r.Ok? ==> WF(r.value) && r.value.files == dst.files && r.value.dirs == dst.dirs + src.dirs
  {
    var cur := dst;
    var todo := src.dirs;
    while todo != {}
      invariant todo <= src.dirs
      invariant cur.files == dst.files
      invariant dst.dirs + (src.dirs - todo) <= cur.dirs <= dst.dirs + src.dirs
      invariant WF(cur)
      invariant (src.dirs - todo) * dst.files.Keys == {}
      decreases todo
    {
      var d :| d in todo;
      var e := EnsureDir(cur, d);
      if e.Err? {
        ClashWitness(src, dst, d);
        return Err(e.error);
      }
      cur := e.value.0;
      todo := todo - {d};
    }
    r := Ok(cur);
  }

  /** A directory of `src` that cannot be created in `dst` means the two trees clash. */
  lemma ClashWitness(src: Tree, dst: Tree, d: Path)
    requires WF(src) && d in src.dirs
    requires d in dst.files || Parents(d) * dst.files.Keys != {}
    ensures src.dirs * dst.files.Keys != {}
  {
    if d in dst.files {
      assert d in src.dirs * dst.files.Keys;
    } else {
      var q :| q in Parents(d) * dst.files.Keys;
      assert q in src.dirs * dst.files.Keys;
    }
  }

  /** The file half of `copy2_r`: `copy2` for every file of `src`, once its directories exist. */
  method CopyFiles(src: Tree, dst: Tree) returns (r: Result<Tree>)
    requires WF(src) && WF(dst) && src.dirs <= dst.dirs
    ensures r.Err? <==> src.files.Keys * dst.dirs != {}
    ensures r.Ok? ==> WF(r.value) && r.value.dirs == dst.dirs
    ensures r.Ok? ==> r.value.files.Keys == dst.files.Keys + src.files.Keys
    ensures r.Ok? ==> forall p :: p in src.files ==> r.value.files[p] == src.files[p]
    ensures r.Ok? ==> forall p :: p in dst.files && p !in src.files ==> r.value.files[p] == dst.files[p]
  {
    var cur := dst;
    var pending := src.files.Keys;
    while pending != {}
      invariant pending <= src.files.Keys
      invariant CopiedSoFar(cur, src, dst, src.files.Keys - pending)
      decreases pending
    {
      var f :| f in pending;
      var c := Copy2(cur, f, src.files[f]);
      if c.Err? {
        CopyFails(cur, src, dst, src.files.Keys - pending, f);
        return Err(c.error);
      }
      CopiedStep(cur, src, dst, src.files.Keys - pending, f, c.value);
      assert (src.files.Keys - pending) + {f} == src.files.Keys - (pending - {f});
      cur := c.value;
      pending := pending - {f};
    }
    assert src.files.Keys - pending == src.files.Keys;
    r := Ok(cur);
  }

  /** The state of `copy2_r`'s file pass once the files `done` are copied. */
  predicate CopiedSoFar(cur: Tree, src: Tree, dst: Tree, done: set<Path>)
  {
    && done <= src.files.Keys
    && cur.dirs == dst.dirs
    && cur.files.Keys == dst.files.Keys + done
    && (forall q :: q in done ==> cur.files[q] == src.files[q])
    && (forall q :: q in dst.files && q !in src.files ==> cur.files[q] == dst.files[q])
    && done * dst.dirs == {}
    && WF(cur)
  }

  /** Copying one more source file keeps the file pass on track. */
  lemma CopiedStep(cur: Tree, src: Tree, dst: Tree, done: set<Path>, f: Path, next: Tree)
    requires WF(src) && src.dirs <= dst.dirs
    requires CopiedSoFar(cur, src, dst, done)
    requires f in src.files && f !in done
    requires Copy2(cur, f, src.files[f]) == Ok(next)
    ensures CopiedSoFar(next, src, dst, done + {f})
  {
    assert Dirname(f) == "" || Dirname(f) in cur.dirs;
    assert f !in cur.dirs && next.dirs == cur.dirs;
    assert next.files.Keys == dst.files.Keys + (done + {f});
    forall q | q in done + {f} ensures next.files[q] == src.files[q] {
      if q != f {
        assert q in cur.files;
      }
    }
    forall q | q in dst.files && q !in src.files ensures next.files[q] == dst.files[q] {
      assert q in cur.files && q != f;
    }
    assert (done + {f}) * dst.dirs == {};
  }

  /** When `copy2` of a source file fails, that file is a destination directory. */
  lemma CopyFails(cur: Tree, src: Tree, dst: Tree, done: set<Path>, f: Path)
    requires WF(src) && src.dirs <= dst.dirs
    requires CopiedSoFar(cur, src, dst, done)
    requires f in src.files
    requires Copy2(cur, f, src.files[f]).Err?
    ensures src.files.Keys * dst.dirs != {}
  {
    assert Dirname(f) == "" || Dirname(f) in cur.dirs;
    assert f in src.files.Keys * dst.dirs;
  }

  // ---------------------------------------------------------------------------
  // rmtree_d

  /** `rmtree_d(p)`: deletes every file and directory inside `p`, keeping `p` itself.
      The frame below is the definition; what it means for the tree is stated by
      `RmtreeDEmpties` (well-formedness kept, `p` left empty) and `RmtreeDRoot`. */
  function RmtreeD(t: Tree, p: Path): (r: Tree)
    ensures forall q :: q in r.files <==> q in t.files && !Under(q, p)
    ensures forall q :: q in r.files ==> r.files[q] == t.files[q]
    ensures forall q :: q in r.dirs <==> q in t.dirs && !Under(q, p)
  {
    Tree(map q | q in t.files && !Under(q, p) :: t.files[q], set q | q in t.dirs && !Under(q, p))
  }

  /** An ancestor of `q` lying inside `p` puts `q` inside `p` too. */
  lemma UnderFromParent(q: Path, a: Path, p: Path)
    requires a in Parents(q) && Under(a, p)
    ensures Under(q, p)
  {
    var i :| 0 < i < |q| && q[i] == '/' && a == q[..i];
    if p != "" {
      assert q[..|p|] == a[..|p|];
      assert q[|p|] == a[|p|];
    }
  }

  /** `rmtree_d` leaves a well-formed tree in which `p` exists exactly as before and is empty. */
  lemma RmtreeDEmpties(t: Tree, p: Path)
    requires WF(t)
    ensures WF(RmtreeD(t, p))
    ensures p in RmtreeD(t, p).dirs <==> p in t.dirs
    ensures forall q :: q in RmtreeD(t, p).files ==> !Under(q, p)
    ensures forall q :: q in RmtreeD(t, p).dirs ==> !Under(q, p)
  {
    var r := RmtreeD(t, p);
    assert !Under(p, p);
    forall q | q in r.files ensures Parents(q) <= r.dirs {
      forall a | a in Parents(q) ensures a in r.dirs {
        if Under(a, p) { UnderFromParent(q, a, p); }
      }
    }
    forall q | q in r.dirs ensures Parents(q) <= r.dirs {
      forall a | a in Parents(q) ensures a in r.dirs {
        if Under(a, p) { UnderFromParent(q, a, p); }
      }
    }
  }

  /** Emptying the root of a well-formed tree leaves nothing at all. */
  lemma RmtreeDRoot(t: Tree)
    requires WF(t)
    ensures RmtreeD(t, "") == EmptyTree
  {
    var r := RmtreeD(t, "");
    assert r.files.Keys == {};
    assert r.dirs == {};
  }

  // ---------------------------------------------------------------------------
  // Archive extraction

  /** One member of an archive, as the archive reader lists it. */
  datatype Entry = FileEntry(path: Path, data: Bytes) | DirEntry(path: Path)

  /** Is `entries[i]` the last file entry written to its path? */
  predicate LastWrite(entries: seq<Entry>, i: int)
    requires 0 <= i < |entries|
  {
    entries[i].FileEntry? &&
    forall j :: i < j < |entries| ==> !(entries[j].FileEntry? && entries[j].path == entries[i].path)
  }

  /** The set of file paths the entries write. */
  function EntryFiles(entries: seq<Entry>): set<Path>
  {
    set i | 0 <= i < |entries| && entries[i].FileEntry? :: entries[i].path
  }

  /** The paths written by a list of entries: those of its first entry and of the rest. */
  lemma EntryFilesSplit(entries: seq<Entry>)
    requires |entries| > 0
    ensures EntryFiles(entries) == EntryFiles(entries[..1]) + EntryFiles(entries[1..])
  {
    forall q | q in EntryFiles(entries) ensures q in EntryFiles(entries[..1]) + EntryFiles(entries[1..]) {
      var i :| 0 <= i < |entries| && entries[i].FileEntry? && entries[i].path == q;
      if i > 0 {
        assert entries[1..][i - 1] == entries[i];
      } else {
        assert entries[..1][0] == entries[0];
      }
    }
    forall q | q in EntryFiles(entries[1..]) ensures q in EntryFiles(entries) {
      var i :| 0 <= i < |entries[1..]| && entries[1..][i].FileEntry? && entries[1..][i].path == q;
      assert entries[i + 1] == entries[1..][i];
    }
  }

  /** The first entry is the last write to its path when no later entry writes there. */
  lemma LastWriteFirst(entries: seq<Entry>)
    requires |entries| > 0 && LastWrite(entries, 0)
    ensures entries[0].path !in EntryFiles(entries[1..])
  {
  }

  /** A last write after the first entry is still a last write in the rest. */
  lemma LastWriteShift(entries: seq<Entry>, i: int)
    requires 0 < i < |entries| && LastWrite(entries, i)
    ensures LastWrite(entries[1..], i - 1) && entries[1..][i - 1] == entries[i]
  {
  }

  /** Every path's last file entry is what `files` holds there. */
  predicate LastWritesIn(entries: seq<Entry>, files: map<Path, Bytes>)
  {
    forall i :: 0 <= i < |entries| && LastWrite(entries, i) ==>
      entries[i].path in files && files[entries[i].path] == entries[i].data
  }

  /** The last writes of a list are the first entry, unless overwritten later, and the
      last writes of the rest. */
  lemma LastWritesStep(entries: seq<Entry>, first: map<Path, Bytes>, files: map<Path, Bytes>)
    requires |entries| > 0
    requires entries[0].FileEntry? ==> entries[0].path in first && first[entries[0].path] == entries[0].data
    requires forall q :: q in first && q !in EntryFiles(entries[1..]) ==> q in files && files[q] == first[q]
    requires LastWritesIn(entries[1..], files)
    ensures LastWritesIn(entries, files)
  {
    forall i | 0 <= i < |entries| && LastWrite(entries, i)
      ensures entries[i].path in files && files[entries[i].path] == entries[i].data
    {
      if i == 0 {
        LastWriteFirst(entries);
      } else {
        LastWriteShift(entries, i);
      }
    }
  }

  /** Every directory entry other than the root names a directory of `dirs`. */
  predicate DirEntriesIn(entries: seq<Entry>, dirs: set<Path>)
  {
    forall i :: 0 <= i < |entries| && entries[i].DirEntry? && entries[i].path != "" ==> entries[i].path in dirs
  }

  /** The directory entries after the first are those of the rest. */
  lemma DirEntriesShift(entries: seq<Entry>, dirs: set<Path>)
    requires |entries| > 0 && DirEntriesIn(entries[1..], dirs)
    requires entries[0].DirEntry? && entries[0].path != "" ==> entries[0].path in dirs
    ensures DirEntriesIn(entries, dirs)
  {
    forall i | 0 < i < |entries| ensures entries[1..][i - 1] == entries[i] {
    }
  }

  /** `extractall(dir)`: writes the entries into the tree in archive order, creating
      directories for directory entries and for the parents of files. */
  function ExtractAll(entries: seq<Entry>, t: Tree): (r: Result<Tree>)
    ensures r.Ok? && WF(t) ==> WF(r.value)
    ensures r.Ok? ==> r.value.files.Keys == t.files.Keys + EntryFiles(entries)
    ensures r.Ok? ==> forall q :: q in t.files && q !in EntryFiles(entries) ==> r.value.files[q] == t.files[q]
    ensures r.Ok? ==> LastWritesIn(entries, r.value.files)
    ensures r.Ok? ==> t.dirs <= r.value.dirs
    ensures r.Ok? ==> DirEntriesIn(entries, r.value.dirs)
    decreases |entries|
  {
    if |entries| == 0 then Ok(t)
    else
      var step: Result<Tree> :=
        match entries[0]
        case DirEntry(p) => (match EnsureDir(t, p) case Ok((t1, _)) => Ok(t1) case Err(e) => Err(e))
        case FileEntry(p, data) => Copy2(t, p, data);
      match step
      case Err(e) => Err(e)
      case Ok(t1) =>
        var rest := ExtractAll(entries[1..], t1);
        EntryFilesSplit(entries);
        assert rest.Ok? ==> LastWritesIn(entries, rest.value.files) by {
          if rest.Ok? {
            LastWritesStep(entries, t1.files, rest.value.files);
          }
        }
        assert rest.Ok? ==> DirEntriesIn(entries, rest.value.dirs) by {
          if rest.Ok? {
            DirEntriesShift(entries, rest.value.dirs);
          }
        }
        rest
  }

  /** `archive_extract_zip/tar(path, dst, tmpdir)`: extracts the archive into a staging
      directory, merges the staging directory into `dst` with `copy2_r`, then removes a
      staging directory it created itself or empties one the caller supplied.
      `tmp` is the caller's staging directory contents, `None` for a fresh temporary one;
      the second result is the staging directory afterwards, `None` once removed. */
  method ArchiveExtract(entries: seq<Entry>, dst: Tree, tmp: Option<Tree>)
    returns (r: Result<(Tree, Option<Tree>)>)
    requires WF(dst)
    requires tmp.Some? ==> WF(tmp.value)
    ensures r.Ok? ==> (tmp.None? ==> r.value.1 == None)
    ensures r.Ok? ==> (tmp.Some? ==> r.value.1 == Some(EmptyTree))
    ensures r.Ok? ==> WF(r.value.0)
    ensures r.Ok? ==> dst.dirs <= r.value.0.dirs
    ensures r.Ok? ==> DirEntriesIn(entries, r.value.0.dirs)
    ensures r.Ok? ==> LastWritesIn(entries, r.value.0.files)
    ensures r.Ok? && tmp.None? ==> r.value.0.files.Keys == dst.files.Keys + EntryFiles(entries)
    ensures r.Ok? && tmp.None? ==> forall q :: q in dst.files && q !in EntryFiles(entries) ==>
                                      r.value.0.files[q] == dst.files[q]
  {
    var stage := tmp.GetOr(EmptyTree);
    var staged := ExtractAll(entries, stage);
    if staged.Err? {
      return Err(staged.error);
    }
    assert forall i :: 0 <= i < |entries| && entries[i].FileEntry? ==> entries[i].path in EntryFiles(entries);
    var merged := Copy2R(staged.value, dst);
    if merged.Err? {
      return Err(merged.error);
    }
    if tmp.Some? {
      RmtreeDRoot(staged.value);
      r := Ok((merged.value, Some(RmtreeD(staged.value, ""))));
    } else {
      r := Ok((merged.value, None));
    }
  }

  // ---------------------------------------------------------------------------
  // os.path.join, open(..., 'wb') and os.unlink

  /** Python's `os.path.join(a, b)` on POSIX: an absolute `b` replaces `a`; otherwise
      a single `/` separates them unless `a` is empty or already ends with one. */
  function PathJoin(a: Path, b: Path): (r: Path)
    ensures |b| > 0 && b[0] == '/' ==> r == b
    ensures !(|b| > 0 && b[0] == '/') ==> EndsWith(r, b) && StartsWith(r, a)
  {
    if |b| > 0 && b[0] == '/' then b
    else if a == "" || a[|a| - 1] == '/' then a + b
    else a + "/" + b
  }

  /** A name without slashes lands directly inside the directory. */
  lemma PathJoinDirname(a: Path, b: Path)
    requires b != "" && '/' !in b
    requires a == "" || a[|a| - 1] != '/'
    ensures Dirname(PathJoin(a, b)) == a
  {
    if a == "" {
      assert PathJoin(a, b) == b;
    } else {
      assert PathJoin(a, b) == a + ['/'] + b;
      LastPieceAfter(a, b, '/');
    }
  }

  /** Whether `open(path, 'wb')` succeeds: not a directory, not a name ending in a
      slash, and the containing directory exists. */
  predicate Writable(t: Tree, p: Path)
  {
    p != "" && p[|p| - 1] != '/' && p !in t.dirs && (Dirname(p) == "" || Dirname(p) in t.dirs)
  }

  /** `open(path, 'wb')`: truncates or creates the file. */
  function OpenForWrite(t: Tree, p: Path): (r: Result<Tree>)
    ensures r.Ok? <==> Writable(t, p)
    ensures r.Ok? ==> r.value == Tree(t.files[p := []], t.dirs)
    ensures r.Ok? && WF(t) ==> WF(r.value)
  {
    if !Writable(t, p) then Err("OSError")
    else
      var t' := Tree(t.files[p := []], t.dirs);
      assert WF(t) ==> WF(t') by {
        if WF(t) {
          forall q | q in Parents(p) ensures q in t.dirs {
            ParentsBelowDirname(p, q);
          }
        }
      }
      Ok(t')
  }

  /** `os.unlink(path)` on a file. */
  function RemoveFile(t: Tree, p: Path): (r: Tree)
    ensures r.files.Keys == t.files.Keys - {p} && r.dirs == t.dirs
    ensures forall q :: q in r.files ==> r.files[q] == t.files[q]
    ensures WF(t) ==> WF(r)
  {
    Tree(t.files - {p}, t.dirs)
  }
}

=== FILE: results.dfy ===
/** Failure-carrying values used throughout the model.
    `Option` stands for Python's `None`-or-value returns, `Result` for a value
    or a raised exception (named by its Python class). */
module Results {

  datatype Option<+T> = None | Some(value: T) {

    /** The wrapped value, or `default` for `None`. */
    function GetOr(default: T): T {
      match this
      case Some(v) => v
      case None => default
    }
  }

  datatype Result<+T> = Ok(value: T) | Err(error: string)
}

=== FILE: setup_header.dfy ===
/** `parse_response_header` of setup.py: the content type, length and file name read
    from a response's headers. The URL it falls back on (a module-level name bound by
    the setup loop) is an explicit parameter here. */
module SetupHeader {
  import opened Results
  import opened Text
  import opened Http

  /** Python's `g[1:-1]`: the text without its first and last characters, empty when
      there are fewer than three. */
  function Unquote(g: string): (r: string)
    ensures |g| >= 2 ==> g == [g[0]] + r + [g[|g| - 1]]
    ensures |g| < 2 ==> r == ""
  {
    if |g| >= 2 then g[1..|g| - 1] else ""
  }

  /** A name between a pair of quotes comes back unchanged. */
  lemma UnquoteQuoted(x: string)
    ensures Unquote("\"" + x + "\"") == x
  {
    var g := "\"" + x + "\"";
    assert g[1..|g| - 1] == x;
  }

  /** Append `"." + ct` unless the name already ends with `ct`. */
  function WithTypeSuffix(name: string, ct: string): (r: string)
    ensures EndsWith(r, ct)
    ensures r == name <==> EndsWith(name, ct)
    ensures r != name ==> r == name + "." + ct
  {
    if EndsWith(name, ct) then name
    else
      var r := name + "." + ct;
      assert r[|r| - |ct|..] == ct;
      r
  }

  /** Applying the suffix rule a second time changes nothing. */
  lemma WithTypeSuffixIdempotent(name: string, ct: string)
    ensures WithTypeSuffix(WithTypeSuffix(name, ct), ct) == WithTypeSuffix(name, ct)
  {
  }

  /** `(content_type, content_length, file_name)`. */
  datatype HeaderFacts = HeaderFacts(contentType: Option<string>, contentLength: Option<int>, fileName: string)

  /** The name before the type rule: the URL's last `/`-piece without a disposition;
      else the first `filename=` capture without its first and last characters, and
      `Err` (an `IndexError`) when there is none. */
  function BaseName(h: Headers, url: string): (r: Result<string>)
    ensures "content-disposition" !in h ==> r == Ok(LastPiece(url, '/'))
    ensures "content-disposition" in h ==>
              (r.Err? <==> forall j :: !MatchAt(h["content-disposition"], "filename=", j))
    ensures "content-disposition" in h && FindGroup(h["content-disposition"], "filename=").Some? ==>
              r == Ok(Unquote(FindGroup(h["content-disposition"], "filename=").value))
  {
    match Header(h, "content-disposition")
    case None => Ok(LastPiece(url, '/'))
    case Some(cd) =>
      match FindGroup(cd, "filename=")
      case None => Err("IndexError")
      case Some(g) => Ok(Unquote(g))
  }

  /** `parse_response_header(resp)` with `url` explicit. */
  function ParseResponseHeader(h: Headers, url: string): (r: Result<HeaderFacts>)
    ensures r.Err? <==> BaseName(h, url).Err? ||
                        ("content-length" in h && PyInt(h["content-length"]).None?)
    ensures BaseName(h, url).Err? ==> r == Err("IndexError")
    ensures r.Ok? ==> (r.value.contentType.Some? <==> "content-type" in h)
    ensures r.Ok? && r.value.contentType.Some? ==>
              && '/' !in r.value.contentType.value
              && EndsWith(h["content-type"], r.value.contentType.value)
              && EndsWith(r.value.fileName, r.value.contentType.value)
              && StartsWith(r.value.fileName, BaseName(h, url).value)
    ensures r.Ok? && "content-type" in h ==> r.value.contentType == Some(LastPiece(h["content-type"], '/'))
    ensures r.Ok? && "content-type" in h ==>
              r.value.fileName == WithTypeSuffix(BaseName(h, url).value, LastPiece(h["content-type"], '/'))
    ensures r.Ok? && r.value.contentType.None? ==> r.value.fileName == BaseName(h, url).value
    ensures r.Ok? ==> (r.value.contentLength.Some? <==> "content-length" in h)
    ensures r.Ok? && "content-length" in h ==> r.value.contentLength == PyInt(h["content-length"])
  {
    match BaseName(h, url)
    case Err(e) => Err(e)
    case Ok(base) =>
      TypeFacts(h, base);
      var ct := if "content-type" in h then Some(LastPiece(h["content-type"], '/')) else None;
      var name := if ct.Some? then WithTypeSuffix(base, ct.value) else base;
      if "content-length" !in h then Ok(HeaderFacts(ct, None, name))
      else
        match PyInt(h["content-length"])
        case None => Err("ValueError")
        case Some(n) => Ok(HeaderFacts(ct, Some(n), name))
  }

  /** The subtype is the slash-free tail of the type header, and the suffixed name
      starts with the base and ends with the subtype. */
  lemma TypeFacts(h: Headers, base: string)
    ensures "content-type" in h ==>
              var ct := LastPiece(h["content-type"], '/');
              && '/' !in ct
              && EndsWith(h["content-type"], ct)
              && EndsWith(WithTypeSuffix(base, ct), ct)
              && StartsWith(WithTypeSuffix(base, ct), base)
  {
    if "content-type" in h {
      var ct := LastPiece(h["content-type"], '/');
      if !EndsWith(base, ct) {
        assert (base + "." + ct)[..|base|] == base;
      }
    }
  }

  /** A quoted `filename="x"` parameter and no type header give back exactly `x`. */
  lemma QuotedFileName(h: Headers, url: string, x: string)
    requires "content-disposition" in h
    requires FindGroup(h["content-disposition"], "filename=") == Some("\"" + x + "\"")
    requires "content-type" !in h && "content-length" !in h
    ensures ParseResponseHeader(h, url) == Ok(HeaderFacts(None, None, x))
  {
    UnquoteQuoted(x);
  }

  /** With no headers at all the name is the URL's last path segment. */
  lemma UrlFileName(url: string, segment: string)
    requires '/' !in segment
    ensures ParseResponseHeader(map[], url + "/" + segment) == Ok(HeaderFacts(None, None, segment))
  {
    LastPieceAfter(url, segment, '/');
  }

  /** A name that already carries the type as its suffix is kept as it is, and the type
      is the subtype after the last slash. */
  lemma TypedName(h: Headers, url: string, major: string, sub: string)
    requires "content-disposition" !in h && "content-length" !in h
    requires h == map["content-type" := major + "/" + sub]
    requires '/' !in sub
    requires EndsWith(LastPiece(url, '/'), sub)
    ensures ParseResponseHeader(h, url) == Ok(HeaderFacts(Some(sub), None, LastPiece(url, '/')))
  {
    LastPieceAfter(major, sub, '/');
  }
}

=== FILE: steamcmd.dfy ===
/** `SteamAppManager` (src/steamcmd_manager.py, and its copy in utils.py): the app and
    dedicated-server settings, the login defaulting, and the argument lists handed to
    steamcmd. Running steamcmd itself is outside the model. */
module SteamCmd {
  import opened Results
  import opened Text
  import opened PathUtils

  const SteamcmdDir: Path := "/steamcmd"
  const SteamcmdFileName: Path := "steamcmd.exe"

  /** The manager's instance state; `userid` and `passwd` are `_userid` and `_passwd`. */
  datatype Manager = Manager(appid: string, dsAppid: string, dsInstallDir: string, dsFilePath: string,
                             userid: string, passwd: string)

  /** `configure_auth(userid, passwd)`: an empty user id means the anonymous login;
      the password is kept as given. */
  function ConfigureAuth(m: Manager, userid: string, passwd: string): (r: Manager)
    ensures userid == "" ==> r.userid == "anonymous"
    ensures userid != "" ==> r.userid == userid
    ensures r.userid != ""
    ensures r.passwd == passwd
    ensures r.(userid := m.userid, passwd := m.passwd) == m
  {
    m.(userid := if userid == "" then "anonymous" else userid, passwd := passwd)
  }

  /** `SteamAppManager(appid, ds_appid, ds_install_dir, ds_file_path)`. */
  function New(appid: string, dsAppid: string, dsInstallDir: string, dsFilePath: string): (r: Manager)
    ensures r.userid == "anonymous" && r.passwd == ""
    ensures r.appid == appid && r.dsAppid == dsAppid
    ensures r.dsInstallDir == dsInstallDir && r.dsFilePath == dsFilePath
  {
    ConfigureAuth(Manager(appid, dsAppid, dsInstallDir, dsFilePath, "", ""), "", "")
  }

  /** `configure(appid, ds_appid, ds_install_dir, ds_file_path)`: the four app fields are
      replaced and the login is kept. */
  function Configure(m: Manager, appid: string, dsAppid: string, dsInstallDir: string, dsFilePath: string): (r: Manager)
    ensures r.appid == appid && r.dsAppid == dsAppid
    ensures r.dsInstallDir == dsInstallDir && r.dsFilePath == dsFilePath
    ensures r.userid == m.userid && r.passwd == m.passwd
  {
    m.(appid := appid, dsAppid := dsAppid, dsInstallDir := dsInstallDir, dsFilePath := dsFilePath)
  }

  /** Configuring the app and configuring the login touch disjoint fields, so their order
      does not matter. */
  lemma ConfigureCommutes(m: Manager, appid: string, dsAppid: string, dsInstallDir: string, dsFilePath: string,
                          userid: string, passwd: string)
    ensures Configure(ConfigureAuth(m, userid, passwd), appid, dsAppid, dsInstallDir, dsFilePath)
         == ConfigureAuth(Configure(m, appid, dsAppid, dsInstallDir, dsFilePath), userid, passwd)
  {
  }

  /** `get_steamcmd_path()`: `os.path.join` of the install directory and the executable. */
  function SteamcmdPath(): (r: Path)
    ensures r == "/steamcmd/steamcmd.exe"
  {
    var p := PathJoin(SteamcmdDir, SteamcmdFileName);
    assert p == SteamcmdDir + "/" + SteamcmdFileName;
    p
  }

  /** `prepare_args_update_app(validate)`: force the install directory, log in anonymously,
      update the dedicated-server app, optionally validate, then quit. */
  function PrepareArgsUpdateApp(m: Manager, validate: bool): (args: seq<string>)
    ensures |args| == if validate then 9 else 8
    ensures args[0] == SteamcmdPath()
    ensures args[1] == "+force_install_dir" && args[2] == m.dsInstallDir
    ensures args[3] == "+login" && args[4] == "anonymous"
    ensures args[5] == "+app_update" && args[6] == m.dsAppid
    ensures validate ==> args[|args| - 2] == "+validate"
    ensures args[|args| - 1] == "+quit"
  {
    var args := [SteamcmdPath(), "+force_install_dir", m.dsInstallDir, "+login", "anonymous",
                 "+app_update", m.dsAppid];
    (if validate then args + ["+validate"] else args) + ["+quit"]
  }

  /** The update arguments never carry the configured login. */
  lemma UpdateArgsIgnoreAuth(m: Manager, userid: string, passwd: string, validate: bool)
    ensures PrepareArgsUpdateApp(ConfigureAuth(m, userid, passwd), validate) == PrepareArgsUpdateApp(m, validate)
  {
  }

  /** `+validate` occurs exactly when asked for, unless a setting is itself spelled
      `+validate`. */
  lemma ValidateIffRequested(m: Manager, validate: bool)
    requires m.dsInstallDir != "+validate" && m.dsAppid != "+validate"
    ensures "+validate" in PrepareArgsUpdateApp(m, validate) <==> validate
  {
    var args := PrepareArgsUpdateApp(m, validate);
    if !validate {
      forall i | 0 <= i < |args| ensures args[i] != "+validate" {
        assert args[i] in {SteamcmdPath(), "+force_install_dir", m.dsInstallDir, "+login", "anonymous",
                           "+app_update", m.dsAppid, "+quit"};
      }
    }
  }

  /** A workshop item id as a caller hands it over: a number, or a text id (say from the
      configuration) that `str` passes through unchanged. */
  datatype ItemId = NumberId(n: int) | TextId(text: string)

  /** `str(workshop_item_id)`: a text id is itself; a number is printed in decimal,
      with a minus sign when negative, so that `int` reads it back. */
  function ItemText(id: ItemId): (r: string)
    ensures id.TextId? ==> r == id.text
    ensures id.NumberId? ==> PyInt(r) == Some(id.n)
    ensures id.NumberId? && id.n >= 0 ==> IsNumeric(r) && DecimalValue(r) == id.n
    ensures id.NumberId? && id.n < 0 ==> |r| > 1 && r[0] == '-' && IsNumeric(r[1..])
  {
    match id
    case TextId(t) => t
    case NumberId(n) =>
      if n >= 0 then
        PyIntRoundTrip(n);
        DecimalRoundTrip(n);
        NatToDecimal(n)
      else
        PyIntNegative(-n);
        var d := NatToDecimal(-n);
        assert ("-" + d)[1..] == d;
        "-" + d
  }

  /** `prepare_args_workshop_download_item(workshop_item_id)`: force the install directory,
      log in with the configured user and password, download the item of the app, then
      quit. The item id is printed with `str`. */
  function PrepareArgsWorkshopDownloadItem(m: Manager, itemId: ItemId): (args: seq<string>)
    ensures |args| == 10
    ensures args[0] == SteamcmdPath()
    ensures args[1] == "+force_install_dir" && args[2] == m.dsInstallDir
    ensures args[3] == "+login" && args[4] == m.userid && args[5] == m.passwd
    ensures args[6] == "+workshop_download_item" && args[7] == m.appid
    ensures itemId.TextId? ==> args[8] == itemId.text
    ensures itemId.NumberId? ==> PyInt(args[8]) == Some(itemId.n)
    ensures itemId.NumberId? && itemId.n >= 0 ==> IsNumeric(args[8]) && DecimalValue(args[8]) == itemId.n
    ensures args[9] == "+quit"
  {
    [SteamcmdPath(), "+force_install_dir", m.dsInstallDir, "+login", m.userid, m.passwd,
     "+workshop_download_item", m.appid, ItemText(itemId), "+quit"]
  }

  /** What steamcmd reads back from an update command line: the install directory, the
      app and whether to validate. */
  function ReadUpdateArgs(args: seq<string>): (r: Option<(string, string, bool)>)
    ensures r.Some? ==> |args| == 8 || |args| == 9
  {
    if (|args| == 8 || |args| == 9) && args[1] == "+force_install_dir" && args[3] == "+login"
       && args[5] == "+app_update" && args[|args| - 1] == "+quit"
       && (|args| == 9 ==> args[7] == "+validate")
    then Some((args[2], args[6], |args| == 9))
    else None
  }

  /** The update command line carries the install directory, app and flag it was built from. */
  lemma UpdateArgsRoundTrip(m: Manager, validate: bool)
    ensures ReadUpdateArgs(PrepareArgsUpdateApp(m, validate)) == Some((m.dsInstallDir, m.dsAppid, validate))
  {
  }

  /** What steamcmd reads back from a workshop command line: install directory, user,
      password, app and item. */
  function ReadWorkshopArgs(args: seq<string>): (r: Option<(string, string, string, string, string)>)
    ensures r.Some? ==> |args| == 10 && r.value.4 == args[8]
  {
    if |args| == 10 && args[1] == "+force_install_dir" && args[3] == "+login"
       && args[6] == "+workshop_download_item" && args[9] == "+quit"
    then Some((args[2], args[4], args[5], args[7], args[8]))
    else None
  }

  /** The workshop command line carries the settings, the login and the item it was built from. */
  lemma WorkshopArgsRoundTrip(m: Manager, itemId: ItemId)
    ensures ReadWorkshopArgs(PrepareArgsWorkshopDownloadItem(m, itemId))
         == Some((m.dsInstallDir, m.userid, m.passwd, m.appid, ItemText(itemId)))
  {
  }

  /** A numeric item id comes back as a numeral that `int` reads as the same number. */
  lemma WorkshopNumericItem(m: Manager, n: int)
    ensures var r := ReadWorkshopArgs(PrepareArgsWorkshopDownloadItem(m, NumberId(n)));
            r.Some? && PyInt(r.value.4) == Some(n)
  {
  }

  /** A text id, such as a zero-padded `"0123"`, is passed on character for character. */
  lemma WorkshopTextItem(m: Manager, text: string)
    ensures var r := ReadWorkshopArgs(PrepareArgsWorkshopDownloadItem(m, TextId(text)));
            r.Some? && r.value.4 == text
  {
  }

  /** A fresh manager downloads workshop items anonymously with an empty password. */
  lemma FreshManagerWorkshopLogin(appid: string, dsAppid: string, dsInstallDir: string, dsFilePath: string, itemId: ItemId)
    ensures var args := PrepareArgsWorkshopDownloadItem(New(appid, dsAppid, dsInstallDir, dsFilePath), itemId);
            args[3..6] == ["+login", "anonymous", ""]
  {
  }
}

=== FILE: text.dfy ===
/** Python string operations the core relies on, with Python's semantics:
    `str.split`/`str.join` on one separator character, `str.strip` with a
    character set, ASCII `lower`, `isnumeric`, `int()` and the first match
    of a regular expression of the shape `key(.+)`. */
module Text {
  import opened Results

  /** Python's `s.split(c)`: never empty, and no piece contains `c`. */
  function Split(s: string, c: char): (r: seq<string>)
    ensures |r| >= 1
    ensures forall i :: 0 <= i < |r| ==> c !in r[i]
    decreases |s|
  {
    if |s| == 0 then [""]
    else
      var rest := Split(s[1..], c);
      if s[0] == c then [""] + rest
      else [[s[0]] + rest[0]] + rest[1..]
  }

  /** Python's `c.join(parts)`. */
  function Join(parts: seq<string>, c: char): string
  {
    if |parts| == 0 then ""
    else if |parts| == 1 then parts[0]
    else parts[0] + [c] + Join(parts[1..], c)
  }

  /** Joining the pieces of a split gives the string back. */
  lemma {:induction false} JoinSplit(s: string, c: char)
    ensures Join(Split(s, c), c) == s
    decreases |s|
  {
    if |s| > 0 {
      var rest := Split(s[1..], c);
      JoinSplit(s[1..], c);
      if s[0] == c {
        assert Split(s, c) == [""] + rest;
        assert Join(Split(s, c), c) == "" + [c] + Join(rest, c);
        assert s == [s[0]] + s[1..];
      } else {
        var r := Split(s, c);
        assert r == [[s[0]] + rest[0]] + rest[1..];
        if |rest| == 1 {
          assert Join(r, c) == [s[0]] + rest[0];
        } else {
          assert r[1..] == rest[1..];
          assert Join(r, c) == ([s[0]] + rest[0]) + [c] + Join(rest[1..], c);
          assert Join(rest, c) == rest[0] + [c] + Join(rest[1..], c);
        }
        assert s == [s[0]] + s[1..];
      }
    }
  }

  /** A string without the separator splits into itself alone. */
  lemma {:induction false} SplitNoSep(s: string, c: char)
    requires c !in s
    ensures Split(s, c) == [s]
    decreases |s|
  {
    if |s| > 0 {
      assert c !in s[1..] by {
        forall i | 0 <= i < |s[1..]| ensures s[1..][i] != c {
          assert s[1..][i] == s[i + 1];
        }
      }
      SplitNoSep(s[1..], c);
      assert s == [s[0]] + s[1..];
    }
  }

  /** Splitting around one separator occurrence splits both sides. */
  lemma {:induction false} SplitConcat(a: string, b: string, c: char)
    ensures Split(a + [c] + b, c) == Split(a, c) + Split(b, c)
    decreases |a|
  {
    var s := a + [c] + b;
    if |a| == 0 {
      assert s == [c] + b;
      assert s[1..] == b;
    } else {
      var t := a[1..];
      assert Split(s, c) == SplitCons(a[0], Split(t + [c] + b, c), c) by {
        SplitUnfold(s, c);
        assert s[1..] == t + [c] + b;
      }
      SplitUnfold(a, c);
      SplitConcat(t, b, c);
      SplitConsAppend(a[0], Split(t, c), Split(b, c), c);
    }
  }

  /** The first character's effect on a split of the rest. */
  function SplitCons(x: char, rest: seq<string>, c: char): seq<string>
    requires |rest| >= 1
  {
    if x == c then [""] + rest else [[x] + rest[0]] + rest[1..]
  }

  /** One unfolding of `Split`. */
  lemma SplitUnfold(s: string, c: char)
    requires |s| > 0
    ensures Split(s, c) == SplitCons(s[0], Split(s[1..], c), c)
  {
  }

  /** The first character only touches the first piece, so later pieces pass through. */
  lemma SplitConsAppend(x: char, p: seq<string>, q: seq<string>, c: char)
    requires |p| >= 1
    ensures SplitCons(x, p + q, c) == SplitCons(x, p, c) + q
  {
    if x != c {
      assert (p + q)[0] == p[0];
      assert (p + q)[1..] == p[1..] + q;
    }
  }

  /** Joining a concatenation of non-empty piece lists joins both halves. */
  lemma {:induction false} JoinConcat(a: seq<string>, b: seq<string>, c: char)
    requires |a| > 0 && |b| > 0
    ensures Join(a + b, c) == Join(a, c) + [c] + Join(b, c)
    decreases |a|
  {
    if |a| > 1 {
      assert (a + b)[1..] == a[1..] + b;
      JoinConcat(a[1..], b, c);
    } else {
      assert (a + b)[1..] == b;
    }
  }

  /** Splitting a join of separator-free pieces recovers the pieces. */
  lemma {:induction false} SplitJoin(parts: seq<string>, c: char)
    requires |parts| > 0
    requires forall i :: 0 <= i < |parts| ==> c !in parts[i]
    ensures Split(Join(parts, c), c) == parts
    decreases |parts|
  {
    SplitNoSep(parts[0], c);
    if |parts| > 1 {
      SplitJoin(parts[1..], c);
      SplitConcat(parts[0], Join(parts[1..], c), c);
      assert parts == [parts[0]] + parts[1..];
    }
  }

  /** The last `c`-separated piece of `s` (Python `s.split(c)[-1]`). */
  function LastPiece(s: string, c: char): (r: string)
    ensures c !in r
    ensures c in s ==> |r| < |s|
    ensures |r| <= |s| && r == s[|s| - |r|..]
    ensures |r| < |s| ==> s[|s| - |r| - 1] == c
  {
    var parts := Split(s, c);
    JoinSplit(s, c);
    if |parts| == 1 then parts[0]
    else
      var n := |parts|;
      assert parts == parts[..n - 1] + [parts[n - 1]];
      JoinConcat(parts[..n - 1], [parts[n - 1]], c);
      parts[n - 1]
  }

  /** The piece after the last separator of `x + [c] + y`, when `y` is separator free. */
  lemma LastPieceAfter(x: string, y: string, c: char)
    requires c !in y
    ensures LastPiece(x + [c] + y, c) == y
  {
    SplitConcat(x, y, c);
    SplitNoSep(y, c);
  }

  // ---------------------------------------------------------------------------
  // str.strip with an explicit character set

  /** The first index at or after `i` whose character is not in `cs`, or `|s|`. */
  function SkipFrom(s: string, cs: set<char>, i: nat): (k: nat)
    requires i <= |s|
    ensures i <= k <= |s|
    ensures forall m :: i <= m < k ==> s[m] in cs
    ensures k < |s| ==> s[k] !in cs
    decreases |s| - i
  {
    if i < |s| && s[i] in cs then SkipFrom(s, cs, i + 1) else i
  }

  /** The end of `s[lo..j]` once trailing characters in `cs` are dropped. */
  function BackFrom(s: string, cs: set<char>, lo: nat, j: nat): (k: nat)
    requires lo <= j <= |s|
    ensures lo <= k <= j
    ensures forall m :: k <= m < j ==> s[m] in cs
    ensures k > lo ==> s[k - 1] !in cs
    decreases j - lo
  {
    if j > lo && s[j - 1] in cs then BackFrom(s, cs, lo, j - 1) else j
  }

  /** Python's `s.rstrip(cs)`. */
  function StripRight(s: string, cs: set<char>): (r: string)
    ensures |r| <= |s| && r == s[..|r|]
    ensures |r| > 0 ==> r[|r| - 1] !in cs
    ensures forall i :: |r| <= i < |s| ==> s[i] in cs
  {
    s[..BackFrom(s, cs, 0, |s|)]
  }

  /** Number of leading characters of `s` that `strip(cs)` removes. */
  function Lead(s: string, cs: set<char>): (n: nat)
    ensures n <= |s|
  {
    SkipFrom(s, cs, 0)
  }

  /** Python's `s.strip(cs)`: the slice left after dropping the longest prefix and
      the longest suffix made of characters in `cs`. */
  function Strip(s: string, cs: set<char>): (r: string)
    ensures Lead(s, cs) + |r| <= |s| && r == s[Lead(s, cs)..Lead(s, cs) + |r|]
    ensures forall k :: 0 <= k < Lead(s, cs) ==> s[k] in cs
    ensures forall k :: Lead(s, cs) + |r| <= k < |s| ==> s[k] in cs
    ensures |r| > 0 ==> r[0] !in cs && r[|r| - 1] !in cs
  {
    var i := SkipFrom(s, cs, 0);
    var j := BackFrom(s, cs, i, |s|);
    assert i < j ==> s[i] !in cs;
    s[i..j]
  }

  lemma {:induction false} SkipFromUnique(s: string, cs: set<char>, i: nat, k: nat)
    requires i <= k <= |s|
    requires forall m :: i <= m < k ==> s[m] in cs
    requires k == |s| || s[k] !in cs
    ensures SkipFrom(s, cs, i) == k
    decreases k - i
  {
    if i < k {
      SkipFromUnique(s, cs, i + 1, k);
    }
  }

  lemma {:induction false} BackFromUnique(s: string, cs: set<char>, lo: nat, j: nat, k: nat)
    requires lo <= k <= j <= |s|
    requires forall m :: k <= m < j ==> s[m] in cs
    requires k == lo || s[k - 1] !in cs
    ensures BackFrom(s, cs, lo, j) == k
    decreases j - k
  {
    if k < j {
      BackFromUnique(s, cs, lo, j - 1, k);
    }
  }

  /** `strip` is determined by where the kept slice starts and ends. */
  lemma {:induction false} StripUnique(s: string, cs: set<char>, i: nat, j: nat)
    requires i <= j <= |s|
    requires forall k :: 0 <= k < i ==> s[k] in cs
    requires forall k :: j <= k < |s| ==> s[k] in cs
    requires i == j || (s[i] !in cs && s[j - 1] !in cs)
    ensures Strip(s, cs) == s[i..j]
  {
    if i == j {
      SkipFromUnique(s, cs, 0, |s|);
      BackFromUnique(s, cs, |s|, |s|, |s|);
    } else {
      SkipFromUnique(s, cs, 0, i);
      BackFromUnique(s, cs, i, |s|, j);
    }
  }

  /** Stripping a string whose ends are already clean changes nothing. */
  lemma StripClean(s: string, cs: set<char>)
    requires |s| == 0 || (s[0] !in cs && s[|s| - 1] !in cs)
    ensures Strip(s, cs) == s
  {
    StripUnique(s, cs, 0, |s|);
    assert s[0..|s|] == s;
  }

  /** Stripping only removes characters: one absent from `s` is absent afterwards. */
  lemma StripKeepsOut(s: string, cs: set<char>, c: char)
    requires c !in s
    ensures c !in Strip(s, cs)
  {
  }

  /** Stripping with a subset first is absorbed by stripping with the larger set. */
  lemma {:induction false} StripAbsorb(s: string, a: set<char>, b: set<char>)
    requires a <= b
    ensures Strip(Strip(s, a), b) == Strip(s, b)
  {
    var r1 := Strip(s, a);
    var r2 := Strip(r1, b);
    var p, q := Lead(s, a), Lead(r1, b);
    NestedStrip(s, r1, r2, a, b, p, q);
    assert Strip(s, b) == s[p + q..p + q + |r2|] by {
      StripUnique(s, b, p + q, p + q + |r2|);
    }
  }

  /** Index bookkeeping for a strip applied to the result of another strip. */
  lemma {:induction false} NestedStrip(s: string, r1: string, r2: string, a: set<char>, b: set<char>, p: nat, q: nat)
    requires a <= b
    requires p + |r1| <= |s| && r1 == s[p..p + |r1|]
    requires q + |r2| <= |r1| && r2 == r1[q..q + |r2|]
    requires forall k :: 0 <= k < p ==> s[k] in a
    requires forall k :: p + |r1| <= k < |s| ==> s[k] in a
    requires forall k :: 0 <= k < q ==> r1[k] in b
    requires forall k :: q + |r2| <= k < |r1| ==> r1[k] in b
    requires |r2| > 0 ==> r2[0] !in b && r2[|r2| - 1] !in b
    ensures r2 == s[p + q..p + q + |r2|]
    ensures forall k :: 0 <= k < p + q ==> s[k] in b
    ensures forall k :: p + q + |r2| <= k < |s| ==> s[k] in b
    ensures |r2| > 0 ==> s[p + q] !in b && s[p + q + |r2| - 1] !in b
  {
    forall k | 0 <= k < |r2| ensures r2[k] == s[p + q + k] {
      assert r2[k] == r1[q + k];
    }
    forall k | 0 <= k < p + q ensures s[k] in b {
      if k >= p { assert s[k] == r1[k - p]; }
    }
    forall k | p + q + |r2| <= k < |s| ensures s[k] in b {
      if k < p + |r1| { assert s[k] == r1[k - p]; }
    }
  }

  // ---------------------------------------------------------------------------
  // Characters

  /** Python's whitespace (`str.isspace`, regex `\s`) restricted to ASCII. */
  const Whitespace: set<char> := {' ', '\t', '\n', '\r', '\U{000B}', '\U{000C}',
                                  '\U{001C}', '\U{001D}', '\U{001E}', '\U{001F}'}

  /** ASCII `ch.lower()`. */
  function LowerChar(ch: char): (r: char)
    ensures 'A' <= ch <= 'Z' ==> 'a' <= r <= 'z'
    ensures !('A' <= ch <= 'Z') ==> r == ch
  {
    if 'A' <= ch <= 'Z' then (ch as int + 32) as char else ch
  }

  /** ASCII `s.lower()`. */
  function Lower(s: string): (r: string)
    ensures |r| == |s|
    ensures forall i :: 0 <= i < |s| ==> r[i] == LowerChar(s[i])
  {
    seq(|s|, i requires 0 <= i < |s| => LowerChar(s[i]))
  }

  predicate StartsWith(s: string, prefix: string)
  {
    |prefix| <= |s| && s[..|prefix|] == prefix
  }

  predicate EndsWith(s: string, suffix: string)
  {
    |suffix| <= |s| && s[|s| - |suffix|..] == suffix
  }

  /** Python's `s[n:]`: empty when `s` is shorter than `n`. */
  function Drop(s: string, n: nat): (r: string)
    ensures |s| >= n ==> s == s[..n] + r
    ensures |s| < n ==> r == ""
  {
    if |s| >= n then s[n..] else ""
  }

  // ---------------------------------------------------------------------------
  // Decimal numbers

  predicate IsDigit(ch: char)
  {
    '0' <= ch <= '9'
  }

  /** Python's `s.isnumeric()` on ASCII input: non-empty and all decimal digits. */
  predicate IsNumeric(s: string)
  {
    |s| > 0 && forall i :: 0 <= i < |s| ==> IsDigit(s[i])
  }

  predicate AllDigits(s: string)
  {
    forall i :: 0 <= i < |s| ==> IsDigit(s[i])
  }

  /** The value of a string of decimal digits (leading zeros allowed). */
  function DecimalValue(s: string): nat
    requires AllDigits(s)
  {
    if |s| == 0 then 0
    else DecimalValue(s[..|s| - 1]) * 10 + (s[|s| - 1] as int - '0' as int)
  }

  /** Python's `str(n)` for a natural number. */
  function NatToDecimal(n: nat): (r: string)
    ensures IsNumeric(r)
  {
    var d := [('0' as int + n % 10) as char];
    if n < 10 then d else NatToDecimal(n / 10) + d
  }

  /** Printing a number and reading it back gives the number. */
  lemma {:induction false} DecimalRoundTrip(n: nat)
    ensures DecimalValue(NatToDecimal(n)) == n
  {
    var s := NatToDecimal(n);
    if n >= 10 {
      DecimalRoundTrip(n / 10);
      assert s[..|s| - 1] == NatToDecimal(n / 10);
    }
  }

  /** `s` with every `_` removed. */
  function DropUnderscores(s: string): (r: string)
    ensures '_' !in r
    ensures |r| <= |s|
  {
    if |s| == 0 then ""
    else if s[0] == '_' then DropUnderscores(s[1..])
    else [s[0]] + DropUnderscores(s[1..])
  }

  /** Python's integer-literal body accepted by `int()`: digits, single `_` between digits. */
  predicate DigitGroups(s: string)
  {
    && |s| > 0 && IsDigit(s[0]) && IsDigit(s[|s| - 1])
    && (forall i :: 0 <= i < |s| ==> IsDigit(s[i]) || s[i] == '_')
    && (forall i :: 0 <= i < |s| - 1 ==> !(s[i] == '_' && s[i + 1] == '_'))
  }

  lemma DropUnderscoresDigits(s: string)
    requires forall i :: 0 <= i < |s| ==> IsDigit(s[i]) || s[i] == '_'
    ensures AllDigits(DropUnderscores(s))
  {
  }

  lemma {:induction false} DropUnderscoresNone(s: string)
    requires '_' !in s
    ensures DropUnderscores(s) == s
    decreases |s|
  {
    if |s| > 0 {
      assert '_' !in s[1..] by {
        forall i | 0 <= i < |s[1..]| ensures s[1..][i] != '_' {
          assert s[1..][i] == s[i + 1];
        }
      }
      DropUnderscoresNone(s[1..]);
      assert s == [s[0]] + s[1..];
    }
  }

  /** Python's `int(s)` for base-10 strings: `None` where Python raises `ValueError`.
      Surrounding whitespace is ignored, one sign is allowed, and single underscores
      may separate digits. */
  function PyInt(s: string): (r: Option<int>)
  {
    var t := Strip(s, Whitespace);
    if |t| > 0 && (t[0] == '+' || t[0] == '-') then
      var body := t[1..];
      if DigitGroups(body) then
        DropUnderscoresDigits(body);
        var v: int := DecimalValue(DropUnderscores(body));
        Some(if t[0] == '-' then -v else v)
      else None
    else if DigitGroups(t) then
      DropUnderscoresDigits(t);
      Some(DecimalValue(DropUnderscores(t)))
    else None
  }

  /** On plain digit strings `int()` agrees with the decimal value. */
  lemma {:induction false} PyIntNumeric(s: string)
    requires IsNumeric(s)
    ensures PyInt(s) == Some(DecimalValue(s))
  {
    assert IsDigit(s[0]) && IsDigit(s[|s| - 1]);
    StripClean(s, Whitespace);
    assert '_' !in s by {
      forall i | 0 <= i < |s| ensures s[i] != '_' {
        assert IsDigit(s[i]);
      }
    }
    assert DigitGroups(s);
    DropUnderscoresNone(s);
  }

  /** `int(str(n)) == n`. */
  lemma {:induction false} PyIntRoundTrip(n: nat)
    ensures PyInt(NatToDecimal(n)) == Some(n)
  {
    PyIntNumeric(NatToDecimal(n));
    DecimalRoundTrip(n);
  }

  /** `int('-' + str(n)) == -n`. */
  lemma {:induction false} PyIntNegative(n: nat)
    ensures PyInt("-" + NatToDecimal(n)) == Some(-(n as int))
  {
    var d := NatToDecimal(n);
    DecimalRoundTrip(n);
    var m := "-" + d;
    assert m[0] !in Whitespace && m[|m| - 1] !in Whitespace;
    StripClean(m, Whitespace);
    assert m[1..] == d;
    assert '_' !in d by {
      forall i | 0 <= i < |d| ensures d[i] != '_' {
        assert IsDigit(d[i]);
      }
    }
    DropUnderscoresNone(d);
  }

  // ---------------------------------------------------------------------------
  // First match of the regular expression `key(.+)`

  /** Does `key(.+)` match at position `i`? (`.` is any character but a newline.) */
  predicate MatchAt(s: string, key: string, i: int)
  {
    0 <= i && i + |key| < |s| && s[i..i + |key|] == key && s[i + |key|] != '\n'
  }

  /** The first index at or after `j` holding a newline, or `|s|`. */
  function LineEnd(s: string, j: nat): (e: nat)
    requires j <= |s|
    ensures j <= e <= |s|
    ensures e < |s| ==> s[e] == '\n'
    ensures forall k :: j <= k < e ==> s[k] != '\n'
    decreases |s| - j
  {
    if j == |s| || s[j] == '\n' then j else LineEnd(s, j + 1)
  }

  /** The captured group of the match at `i`: the rest of that line. */
  function GroupAt(s: string, key: string, i: int): (g: string)
    requires MatchAt(s, key, i)
    ensures |g| > 0 && '\n' !in g
  {
    s[i + |key|..LineEnd(s, i + |key|)]
  }

  function FindFrom(s: string, key: string, i: nat): (r: Option<string>)
    ensures r.None? <==> forall j :: i <= j ==> !MatchAt(s, key, j)
    ensures r.Some? ==> exists j :: i <= j && MatchAt(s, key, j) && r.value == GroupAt(s, key, j)
                                      && forall k :: i <= k < j ==> !MatchAt(s, key, k)
    decreases |s| - i
  {
    if i + |key| >= |s| then None
    else if MatchAt(s, key, i) then Some(GroupAt(s, key, i))
    else FindFrom(s, key, i + 1)
  }

  /** Python's `re.search(key + '(.+)', s)` group 1 (which is also `re.findall(...)[0]`):
      the rest of the line after the leftmost occurrence of `key` that is followed by a
      non-newline character. */
  function FindGroup(s: string, key: string): (r: Option<string>)
    ensures r.None? <==> forall j :: !MatchAt(s, key, j)
    ensures r.Some? ==> exists j :: MatchAt(s, key, j) && r.value == GroupAt(s, key, j)
                                    && forall k :: 0 <= k < j ==> !MatchAt(s, key, k)
  {
    FindFrom(s, key, 0)
  }
}

=== FILE: utils_http.dfy ===
/** The `http_utils` class of utils.py: single-shot HEAD/GET, the file facts read
    from headers (with names normalized), streaming into a buffer with a
    completeness check, and the download that writes the file only on success. */
module UtilsHttp {
  import opened Results
  import opened Text
  import opened PathUtils
  import opened Http
  import opened FileUtils

  /** `http_utils.head(session, url)` and `http_utils.get(session, url)`: the response
      when its status is 200; `None` for any other status and for any exception. */
  function Fetch(o: Outcome): (r: Option<Response>)
    ensures r.Some? <==> o.Answered? && o.resp.status == 200
    ensures r.Some? ==> r.value == o.resp
  {
    match o
    case Answered(resp) => if resp.status == 200 then Some(resp) else None
    case _ => None
  }

  /** `parse_url_filename(url)` given the URL's path: the normalized text after the
      last slash (`os.path.split(path)[-1]`). */
  function ParseUrlFilename(urlPath: string): (r: string)
    ensures Ascii(r)
    ensures '/' !in urlPath ==> r == Normalize(urlPath)
  {
    Normalize(LastPiece(urlPath, '/'))
  }

  /** The name is the normalized last segment, whatever precedes the last slash. */
  lemma UrlFilenameSegment(prefix: string, segment: string)
    requires '/' !in segment
    ensures ParseUrlFilename(prefix + "/" + segment) == Normalize(segment)
  {
    LastPieceAfter(prefix, segment, '/');
  }

  /** Unlike `baseurl` of src/http_utils.py, a trailing slash leaves no name at all. */
  lemma UrlFilenameTrailingSlash(urlPath: string)
    requires |urlPath| > 0 && urlPath[|urlPath| - 1] == '/'
    ensures ParseUrlFilename(urlPath) == ""
  {
    var r := LastPiece(urlPath, '/');
    assert urlPath == urlPath[..|urlPath| - 1] + ['/'] + "";
    LastPieceAfter(urlPath[..|urlPath| - 1], "", '/');
    assert r == "";
    assert AsciiOnly("") == "";
    assert SplitFileNameFormat("") == ("", "");
    assert Collapse("") == "";
    StripUnique("", {'_'}, 0, 0);
  }

  /** `s_file_info`: the file size is -1 when the length is unknown, and the
      disposition is kept as found (possibly absent). */
  datatype FileInfo = FileInfo(fileName: string, fileType: string, fileSize: int,
                               contentDisposition: Option<string>, contentType: string)

  /** The name before normalization: from the URL without a disposition, else the
      first `filename=` value stripped of double quotes; `Err` (an `IndexError`) when
      the disposition has no `filename=` at all. */
  function RawFileName(h: Headers, urlPath: string): (r: Result<string>)
    ensures "content-disposition" !in h ==> r == Ok(ParseUrlFilename(urlPath))
    ensures "content-disposition" in h ==>
              (r.Err? <==> FindGroup(h["content-disposition"], "filename=").None?)
    ensures "content-disposition" in h && FindGroup(h["content-disposition"], "filename=").Some? ==>
              r == Ok(Strip(FindGroup(h["content-disposition"], "filename=").value, {'"'}))
  {
    match Header(h, "content-disposition")
    case None => Ok(ParseUrlFilename(urlPath))
    case Some(cd) =>
      match FindGroup(cd, "filename=")
      case None => Err("IndexError")
      case Some(g) => Ok(Strip(g, {'"'}))
  }

  /** The file size: -1 without a `content-length`, else `int()` of it (`Err`, a
      `ValueError`, when that raises). */
  function FileSize(h: Headers): (r: Result<int>)
    ensures "content-length" !in h ==> r == Ok(-1)
    ensures "content-length" in h ==> (r.Err? <==> PyInt(h["content-length"]).None?)
    ensures "content-length" in h && r.Ok? ==> PyInt(h["content-length"]) == Some(r.value)
  {
    match Header(h, "content-length")
    case None => Ok(-1)
    case Some(v) =>
      match PyInt(v)
      case None => Err("ValueError")
      case Some(n) => Ok(n)
  }

  /** `http_utils.parse_file_info(headers, url)` given the URL's path. */
  function ParseFileInfo(h: Headers, urlPath: string): (r: Result<FileInfo>)
    ensures r.Err? <==> RawFileName(h, urlPath).Err? || FileSize(h).Err?
    ensures r.Ok? ==> Ascii(r.value.fileName)
    ensures r.Ok? ==> r.value.fileName == Normalize(RawFileName(h, urlPath).value)
    ensures r.Ok? ==> r.value.fileType == SplitFileNameFormat(r.value.fileName).1
    ensures r.Ok? ==> r.value.fileSize == FileSize(h).value
    ensures r.Ok? ==> r.value.contentDisposition == Header(h, "content-disposition")
    ensures r.Ok? && "content-type" !in h ==> r.value.contentType == ""
    ensures r.Ok? && "content-type" in h ==> r.value.contentType == h["content-type"]
  {
    match RawFileName(h, urlPath)
    case Err(e) => Err(e)
    case Ok(raw) =>
      match FileSize(h)
      case Err(e) => Err(e)
      case Ok(size) =>
        var name := Normalize(raw);
        Ok(FileInfo(name, SplitFileNameFormat(name).1, size,
                    Header(h, "content-disposition"), Header(h, "content-type").GetOr("")))
  }

  /** With a `filename=` parameter and no length header, the name is that value without
      its double quotes, normalized, and the size is unknown. */
  lemma DispositionFileName(h: Headers, urlPath: string, g: string)
    requires "content-disposition" in h && "content-length" !in h
    requires FindGroup(h["content-disposition"], "filename=") == Some(g)
    ensures ParseFileInfo(h, urlPath).Ok?
    ensures var name := Normalize(Strip(g, {'"'}));
            ParseFileInfo(h, urlPath).value.fileName == name
            && ParseFileInfo(h, urlPath).value.fileType == SplitFileNameFormat(name).1
            && ParseFileInfo(h, urlPath).value.fileSize == -1
  {
  }

  /** The type is the stub after the last dot, with no `tar` rule: `x.tar.gz` has type
      `gz` here where `extract_file_type` gives `tar.gz`. */
  lemma FileTypeIsLastStub(name: string)
    requires '.' in name
    ensures '.' !in SplitFileNameFormat(name).1
    ensures EndsWith(name, "." + SplitFileNameFormat(name).1)
  {
    var sp := SplitFileNameFormat(name);
    assert name == sp.0 + "." + sp.1;
    assert name[|name| - |sp.1| - 1..] == "." + sp.1;
  }

  /** `request_file_info(session, url)`: HEAD, then the file facts of its headers. */
  function RequestFileInfo(head: Outcome, urlPath: string): (r: Result<Option<FileInfo>>)
    ensures Fetch(head).None? ==> r == Ok(None)
    ensures Fetch(head).Some? ==> (r.Err? <==> ParseFileInfo(head.resp.headers, urlPath).Err?)
    ensures Fetch(head).Some? && r.Ok? ==> r.value == Some(ParseFileInfo(head.resp.headers, urlPath).value)
  {
    match Fetch(head)
    case None => Ok(None)
    case Some(resp) =>
      match ParseFileInfo(resp.headers, urlPath)
      case Err(e) => Err(e)
      case Ok(info) => Ok(Some(info))
  }

  // ---------------------------------------------------------------------------
  // get_stream_to_io

  /** `math.isclose(a, b)` with its default relative tolerance of 1e-9 and no absolute
      tolerance, on whole numbers: `|a - b| <= 1e-9 * max(|a|, |b|)`. */
  predicate IsClose(a: int, b: int)
  {
    var d := if a >= b then a - b else b - a;
    var m := if (if a >= 0 then a else -a) >= (if b >= 0 then b else -b) then (if a >= 0 then a else -a) else (if b >= 0 then b else -b);
    d * 1_000_000_000 <= m
  }

  /** Below a billion bytes, `isclose` on sizes is plain equality. */
  lemma IsCloseSmall(a: nat, b: nat)
    requires a < 1_000_000_000 && b < 1_000_000_000
    ensures IsClose(a, b) <==> a == b
  {
  }

  /** `isclose` does not depend on the order of its arguments, and a size is close to itself. */
  lemma IsCloseSymmetric(a: int, b: int)
    ensures IsClose(a, b) <==> IsClose(b, a)
    ensures IsClose(a, a)
  {
  }

  /** From a billion bytes on, a count one byte off the advertised size still passes. */
  lemma IsCloseTolerates(a: nat)
    requires a >= 1_000_000_000
    ensures IsClose(a + 1, a) && IsClose(a, a + 1)
  {
  }

  /** An unknown size (-1) is never close to a byte count, so such downloads fail. */
  lemma IsCloseUnknownSize(a: nat)
    ensures !IsClose(a, -1)
  {
  }

  /** What `get_stream_to_io` returns: `(status, info)`. */
  datatype Streamed = Streamed(ok: bool, info: Option<FileInfo>)

  /** `get_stream_to_io(session, url, io_object)`: GET, read the file facts from the GET
      response, and write every chunk to the buffer. `Err` when reading the facts raises
      (that is outside the `try`). The status is true only when the iteration finished
      and the byte count is close to the advertised size. */
  method GetStreamToIo(get: Outcome, urlPath: string, io: Bytes) returns (r: Result<Streamed>, io': Bytes)
    ensures Fetch(get).None? ==> r == Ok(Streamed(false, None)) && io' == io
    ensures Fetch(get).Some? ==> (r.Err? <==> ParseFileInfo(get.resp.headers, urlPath).Err?)
    ensures Fetch(get).Some? && r.Ok? ==>
              var info := ParseFileInfo(get.resp.headers, urlPath).value;
              && r.value.info == Some(info)
              && io' == io + Flatten(get.resp.body.chunks)
              && (r.value.ok <==> !get.resp.body.broken && IsClose(TotalLength(get.resp.body.chunks), info.fileSize))
  {
    io' := io;
    var resp := Fetch(get);
    if resp.None? {
      return Ok(Streamed(false, None)), io';
    }
    var parsed := ParseFileInfo(resp.value.headers, urlPath);
    if parsed.Err? {
      return Err(parsed.error), io';
    }
    var info := parsed.value;
    var tl;
    tl, io' := Drain(resp.value.body.chunks, io);
    if resp.value.body.broken {
      return Ok(Streamed(false, Some(info))), io';
    }
    r := Ok(Streamed(IsClose(tl, info.fileSize), Some(info)));
  }

  /** The loop of `get_stream_to_io`: writes each chunk and counts its bytes. */
  method Drain(chunks: seq<Bytes>, io: Bytes) returns (tl: nat, io': Bytes)
    ensures io' == io + Flatten(chunks)
    ensures tl == TotalLength(chunks)
  {
    io' := io;
    tl := 0;
    var i := 0;
    while i < |chunks|
      invariant 0 <= i <= |chunks|
      invariant io' == io + Flatten(chunks[..i])
      invariant tl == |Flatten(chunks[..i])|
    {
      FlattenStep(chunks, i);
      tl := tl + |chunks[i]|;
      io' := io' + chunks[i];
      i := i + 1;
    }
    assert chunks[..i] == chunks;
  }

  /** With no `content-length` the size is -1, so a GET that delivers everything still
      reports failure. */
  lemma NoLengthNeverSucceeds(h: Headers, urlPath: string, chunks: seq<Bytes>)
    requires "content-length" !in h
    ensures ParseFileInfo(h, urlPath).Ok? ==> ParseFileInfo(h, urlPath).value.fileSize == -1
    ensures ParseFileInfo(h, urlPath).Ok? ==> !IsClose(TotalLength(chunks), ParseFileInfo(h, urlPath).value.fileSize)
  {
    IsCloseUnknownSize(TotalLength(chunks));
  }

  // ---------------------------------------------------------------------------
  // download_file

  /** What `download_file` returns: `(status, export_path, info)`. */
  datatype Download = Download(ok: bool, path: Option<Path>, info: Option<FileInfo>)

  /** `http_utils.download_file(session, url, export_dir)` with the default in-memory
      buffer: HEAD for the facts; an existing file at the export path is taken as done
      (whatever its size); otherwise GET into the buffer and, only when that succeeded,
      make the directory and write the buffer to the file. */
  method DownloadFile(head: Outcome, get: Outcome, urlPath: string, exportDir: Path, fs: Tree)
    returns (r: Result<Download>, fs': Tree)
    requires WF(fs)
    ensures WF(fs')
    ensures var req := RequestFileInfo(head, urlPath);
            && (req == Ok(None) ==> r == Ok(Download(false, None, None)) && fs' == fs)
            && (req.Err? ==> r.Err? && fs' == fs)
            && (req.Ok? && req.value.Some? ==>
                  var info := req.value.value;
                  var path := PathJoin(exportDir, info.fileName);
                  && (r.Ok? ==> r.value.path == Some(path) && r.value.info == Some(info))
                  && (path in fs.files ==> r == Ok(Download(true, Some(path), Some(info))) && fs' == fs)
                  && (path !in fs.files ==> Fetched(get, urlPath, exportDir, path, fs, if r.Ok? then Ok(r.value.ok) else Err(r.error), fs')))
  {
    fs' := fs;
    var requested := RequestFileInfo(head, urlPath);
    if requested.Err? {
      return Err(requested.error), fs';
    }
    if requested.value.None? {
      return Ok(Download(false, None, None)), fs';
    }
    var info := requested.value.value;
    var path := PathJoin(exportDir, info.fileName);
    if path in fs.files {
      return Ok(Download(true, Some(path), Some(info))), fs';
    }
    var status;
    status, fs' := Store(get, urlPath, exportDir, path, fs);
    match status
    case Err(e) => r := Err(e);
    case Ok(ok) => r := Ok(Download(ok, Some(path), Some(info)));
  }

  /** After a fresh GET, by case: a failed GET gives `False`; headers `parse_file_info`
      rejects raise; a broken body or a size not close to the advertised one gives
      `False`; otherwise `ensure_dir(export_dir)` runs, and the status is `True` exactly
      when the file can then be opened, holding the body's bytes. Only the write step
      changes the tree: a raising `open` keeps the directories `ensure_dir` made. */
  predicate Fetched(get: Outcome, urlPath: string, exportDir: Path, path: Path, fs: Tree, ok: Result<bool>, fs': Tree)
  {
    && (Fetch(get).None? ==> ok == Ok(false) && fs' == fs)
    && (Fetch(get).Some? ==>
          var info := ParseFileInfo(get.resp.headers, urlPath);
          var complete := info.Ok? && !get.resp.body.broken
                          && IsClose(TotalLength(get.resp.body.chunks), info.value.fileSize);
          && (info.Err? ==> ok.Err? && fs' == fs)
          && (info.Ok? && !complete ==> ok == Ok(false) && fs' == fs)
          && (complete ==>
                var made := EnsureDir(fs, exportDir);
                && (made.Err? ==> ok.Err? && fs' == fs)
                && (made.Ok? && !Writable(made.value.0, path) ==> ok.Err? && fs' == made.value.0)
                && (made.Ok? && Writable(made.value.0, path) ==>
                      && ok == Ok(true)
                      && fs'.files == fs.files[path := Flatten(get.resp.body.chunks)]
                      && fs'.dirs == made.value.0.dirs)))
  }

  /** The GET-and-write tail of `download_file`. */
  method Store(get: Outcome, urlPath: string, exportDir: Path, path: Path, fs: Tree)
    returns (r: Result<bool>, fs': Tree)
    requires WF(fs)
    ensures WF(fs')
    ensures Fetched(get, urlPath, exportDir, path, fs, r, fs')
  {
    fs' := fs;
    var streamed, buf := GetStreamToIo(get, urlPath, []);
    if streamed.Err? {
      return Err(streamed.error), fs';
    }
    if !streamed.value.ok {
      return Ok(false), fs';
    }
    assert buf == Flatten(get.resp.body.chunks);
    var written := WriteFile(fs, exportDir, path, buf);
    if written.Err? {
      var made := EnsureDir(fs, exportDir);
      if made.Ok? {
        fs' := made.value.0;
      }
      return Err(written.error), fs';
    }
    fs' := written.value;
    r := Ok(true);
  }

  /** `ensure_dir(export_dir)` and then `open(export_path, 'wb').write(data)`. */
  function WriteFile(t: Tree, dir: Path, path: Path, data: Bytes): (r: Result<Tree>)
    requires WF(t)
    ensures r.Ok? ==> WF(r.value)
    ensures r.Ok? ==> r.value.files == t.files[path := data]
    ensures r.Ok? ==> EnsureDir(t, dir).Ok? && r.value.dirs == EnsureDir(t, dir).value.0.dirs
    ensures EnsureDir(t, dir).Err? ==> r.Err?
    ensures EnsureDir(t, dir).Ok? ==> (r.Ok? <==> Writable(EnsureDir(t, dir).value.0, path))
  {
    match EnsureDir(t, dir)
    case Err(e) => Err(e)
    case Ok((t1, _)) =>
      match OpenForWrite(t1, path)
      case Err(e) => Err(e)
      case Ok(t2) => Ok(Tree(t2.files[path := data], t2.dirs))
  }
}
